=== FILE: README.md ===
# Weekly prices: the range-reconciliation cache

`weekly_prices.py` keeps daily closing prices of a fixed set of assets in a
local table. It answers a request for a date window or for the last N trading
days from that table, and merges into the table whatever the upstream
market-data provider returns before it answers. What it asks the provider
depends on the request:

- A date-window request asks only for the parts of the window the table
  lacks, plus the window's most recent day or two. When a refresh is forced
  it first asks for the whole window, then for the missing parts as usual.
- A last-N-trading-days request asks for the trailing month, and only when a
  refresh is forced or the table holds fewer than N rows for the asset.
  Otherwise it asks nothing.
- A stale-only request asks the provider nothing and answers from the table
  as it is.

This project models that cache in Dafny. It covers
the request normalisation of the `/api/prices` handler, date-range
resolution, gap planning, the table and its three queries, both processing
modes of `fetch_asset_history`, the per-asset summary and the payload
builder. It proves ordering, coverage, isolation and round-trip properties
of that code.

Modules, in dependency order:

- `Wrappers` (wrappers.dfy): `Option` and `Result`.
- `Lexical` (lexical.dfy): ASCII digits, zero-padded decimal fields, Python's
  whitespace set, and byte-wise text order as SQLite compares `TEXT`.
- `IsoDate` (iso_date.dfy): proleptic Gregorian dates as day ordinals (as
  Python's `date.toordinal`), `%Y-%m-%d` formatting, and the `strptime`
  parser with the spellings it accepts.
- `Resolve` (resolve.dfy): `resolve_date_range` and the refresh policy.
- `PriceStore` (price_store.dfy): the `asset_prices` table as a map keyed by
  `(ticker, date)`, with `upsert_prices`, `fetch_cached_prices`,
  `fetch_cached_last_n`, `sort_index` and `tail`.
- `GapPlan` (gap_plan.dfy): `add_range` and the fetch windows of the
  calendar mode.
- `Assembler` (assembler.dfy): the per-asset processing of both modes, the
  batch over all assets, and `build_assets_payload`. The provider is a
  function parameter, and every call is recorded.
- `Handler` (handler.dfy): the query-parameter normalisation of `api_prices`
  and the handler end to end.
- `Scenarios` (scenarios.dfy): the worked one-week example and the
  change-percent edge cases.

Days are integers: Python's `date.toordinal`, with 0001-01-01 as day 1. The
table stores dates as `%Y-%m-%d` text and the SQL compares that text.
`IsoDate.TextOrderIsDayOrder` proves that this text order is the order of
the days. That is why `RangeScan` and `LastN` can compare day numbers.

Three behaviours of the code are easy to misread; the model follows the
code as written:

- A forced refresh replaces only the always-on recent window. The gap checks
  still run (weekly_prices.py:278-290), so a forced plan can name overlapping
  windows.
- A storage error inside the per-asset `try` is caught with every other
  exception. It skips that asset instead of failing the request
  (weekly_prices.py:246-248, 341-343). Storage errors themselves are not
  modelled.
- A stale-only calendar read with no rows is not dropped by a `continue`. It
  fails on `close_values[-1]` with an IndexError, and the `except` skips the
  asset (weekly_prices.py:307-312, 341-343).

## Model

| member | source | states |
|---|---|---|
| Lexical.ValueOfPad | weekly_prices.py:252-253 | reading back a zero-padded decimal field gives the number that was written |
| Lexical.PadOfValue | weekly_prices.py:252-253 | re-padding the value of an all-digit field to its width gives the field back |
| Lexical.ValueLeadingZero | weekly_prices.py:1451 | a leading zero does not change the value of a digit run |
| Lexical.PadTextOrder | weekly_prices.py:111-112 | two zero-padded fields of one width compare as text exactly as their numbers compare |
| IsoDate.OrdinalOrder | weekly_prices.py:267-269 | a date is earlier than another if and only if its day number is smaller, and equal dates are exactly those with equal day numbers |
| IsoDate.FormatDate | weekly_prices.py:252-253 | `%Y-%m-%d` always writes ten characters for years 1 to 9999 |
| IsoDate.ParseCivil | weekly_prices.py:154-155 | an accepted text is a valid calendar date; a rejected one raises the error naming that text |
| IsoDate.ParseDate | weekly_prices.py:154-155 | parsing succeeds exactly when the calendar parse does, and yields that date's day number |
| IsoDate.ParseAcceptsSpellings | weekly_prices.py:154-155 | every spelling `strptime` allows (4-digit year, 1 or 2 digit month, 1 or 2 digit day or space-padded day) parses to its date |
| IsoDate.ParseOnlySpellings | weekly_prices.py:154-155 | every text that parses is one of those spellings of the date it parses to |
| IsoDate.ParseFormatRoundTrip | weekly_prices.py:252-253 | parsing a formatted date gives the date and its day number back |
| IsoDate.TextOrderIsCivilOrder | weekly_prices.py:105-117 | formatted dates compare as text by year, then month, then day |
| IsoDate.TextOrderIsDayOrder | weekly_prices.py:105-117 | formatted dates compare as SQLite text in the same order as the days they name |
| Resolve.PolicyOf | weekly_prices.py:278-292 | stale-only exactly when `stale_only` is set; forced exactly when `force_refresh` is set and `stale_only` is not |
| Resolve.ResolveDateRange | weekly_prices.py:158-171 | with both dates given: the parsed pair, in the given order, or the error of the first bad date; otherwise the window ending today that is 7, 30, 90, 180 or 365 days long by tag, or 7 days for an unknown or missing tag |
| PriceStore.UpsertWrites | weekly_prices.py:136-151 | afterwards the ticker has a row for each written date, holding the close of the last row written for it; every other key keeps its value and nothing is removed |
| PriceStore.UpsertIdempotent | weekly_prices.py:145-151 | writing the same rows twice leaves the table as writing them once |
| PriceStore.RangeScanReads | weekly_prices.py:105-117 | the rows are strictly ascending by date, all inside `[lo, hi]`, each the stored close, and every stored date inside the window is present |
| PriceStore.RangeScanUnknown | weekly_prices.py:105-117 | a ticker with no stored row reads back no rows, whatever the window |
| PriceStore.NewestDates | weekly_prices.py:127-133 | ascending dates from the set, as many as the limit allows (all of them for a negative limit), and every date left out is older than every date kept |
| PriceStore.LastN | weekly_prices.py:120-133 | the ticker's newest `limit` stored rows (all for a negative limit), ascending, each the stored close; every stored date left out is older than every one returned |
| PriceStore.SortByDate | weekly_prices.py:300 | the result is ordered by date and is a permutation of the input |
| PriceStore.SortSortedKeeps | weekly_prices.py:300 | rows already in date order are left exactly as they are |
| PriceStore.LatestRows | weekly_prices.py:204 | the result is date-sorted and drawn from the fetched rows; for `n >= 0` it has `min(n, len)` rows; no row dropped is newer than a row kept |
| PriceStore.LastNEndsAtNewest | weekly_prices.py:120-133 | asking for `n >= 1` rows of a ticker with at least `n` rows returns exactly `n`, the last on the newest stored date |
| GapPlan.AddRangeCovers | weekly_prices.py:273-276 | an empty range is ignored; otherwise the window is appended, and the covered days grow by exactly that range |
| GapPlan.ExtentBounds | weekly_prices.py:267-269 | none exactly when no row is cached; otherwise the earliest and latest cached dates, which bound every row |
| GapPlan.RefreshStart | weekly_prices.py:254 | the later of the window start and the day before its end |
| GapPlan.Plan | weekly_prices.py:271-290 | stale-only plans nothing; otherwise the first window is the recent window (live) or the whole request (forced); with nothing cached the whole request is planned; at most three windows, none empty |
| GapPlan.PlanCovers | weekly_prices.py:271-290 | unless stale-only, every requested day outside the cached extent lies in a planned window |
| GapPlan.PlanWithin | weekly_prices.py:271-290 | when the cached extent lies inside the request, so does every planned window |
| GapPlan.PlanMinimalRefetch | weekly_prices.py:281-290 | a live request whose window the cache already spans fetches only the recent window |
| GapPlan.PlanGaps | weekly_prices.py:284-290 | after the first window, the plan holds the left gap exactly when the cache starts late and the right gap exactly when it ends early, and nothing else |
| Assembler.Summarize | weekly_prices.py:307-321 | no rows, or a zero first close with two or more points, skips the asset; otherwise the dates and closes are the rows and `current` is the last close |
| Assembler.SummarizeChange | weekly_prices.py:314-318 | the change is absent for one point and otherwise satisfies `change * first = (last - first) * 100` |
| Assembler.MergeFetchedStores | weekly_prices.py:299-301 | after merging, every fetched date is stored for the ticker, and only that ticker's rows change; `MergedFrom`: the keys are exactly the old keys plus the ticker's fetched dates, every other key keeps its close, and every fetched date holds a close some fetched row gave for that date |
| Assembler.MergedCompose | weekly_prices.py:295-301 | merging one set of rows and then another is merging their union; a day the second set covers holds a close from the second set, and a day only the first set covers holds a close from the first |
| Assembler.RowSetDays | weekly_prices.py:299-301 | the dates of a fetched frame's rows, taken as a set, are the frame's dates |
| Assembler.AnswerRowsCons | weekly_prices.py:295-301 | the rows of a list of answers are the first answer's rows plus the rest's |
| Assembler.CallWindowsFacts | weekly_prices.py:292-301 | at most one call per planned window, in order, each with the exclusive end one day past the window; each recorded answer is what its call returned; without a failure all windows were called and answered; with one, it came from the last call |
| Assembler.MergeAllStores | weekly_prices.py:299-301 | after upserting every answer in turn, each answer's dates are stored for the ticker and only that ticker's rows change; the store is merged from all the answers' rows (keys exactly, untouched keys unchanged, every fetched date holding a fetched close) |
| Assembler.RecordedRows | weekly_prices.py:295-301 | the rows the loop merges are exactly the rows its answered calls returned; the call that raised adds none |
| Assembler.FetchWindowsStores | weekly_prices.py:295-301 | after the loop, every date an answered call returned is stored, and no other ticker changed; the store is merged from the answered calls' rows, so a new or overwritten day holds a close a call returned for it |
| Assembler.CachedExtentWithin | weekly_prices.py:262-269 | the extent of the cached rows of a window lies inside the window |
| Assembler.PlannedCallsWithin | weekly_prices.py:295-298 | every call the loop makes is a history call for the ticker whose half-open range is non-empty and inside the request |
| Assembler.CalendarAsset | weekly_prices.py:256-343 | stale-only makes no call and writes nothing; a failure implies calls were made; otherwise the answer is the summary of a fresh read of the window |
| Assembler.CalendarCallsWithin | weekly_prices.py:292-298 | every call a calendar run makes is a history call for the ticker whose half-open range is non-empty and inside the request |
| Assembler.CalendarRefreshesFirst | weekly_prices.py:254-298 | a live run over a non-empty window always makes a first call, and it asks for the recent window whatever is cached |
| Assembler.CalendarAssetStores | weekly_prices.py:292-303 | a calendar run writes only its ticker, and every day an answered call returned is stored afterwards; the keys are exactly the old ones plus those days, every other key keeps its close, and each of those days holds a close a call returned for it |
| Assembler.MonotoneCoverage | weekly_prices.py:256-303 | after two runs over any windows, each with its own provider answers, nothing cached before is lost and every day either run fetched is stored; the final store is the old one merged with both runs' answered rows, a day the second run fetched holds a close the second run returned, and a day only the first run fetched holds the first run's |
| Assembler.CalendarAnswerHasFetchedDays | weekly_prices.py:295-309 | after a successful run, every day a call returned inside the window appears in the answer |
| Assembler.TradingAsset | weekly_prices.py:190-248 | the trailing month is fetched exactly when not stale-only and either forced or short of `n` rows; an answer upserts its newest `n` rows; a failure changes nothing; otherwise the answer is the summary of a fresh newest-`n` read |
| Assembler.AssetStepGrowth | weekly_prices.py:190-343 | processing one asset in either mode writes only that asset's ticker |
| Assembler.ProcessAsset | weekly_prices.py:332-343 | one asset adds at most its own chart entry and keeps the others, keeps entries well-shaped, and only appends calls; stale-only changes neither store nor calls |
| Assembler.SkippedAssetKeepsCharts | weekly_prices.py:341-343 | a skipped asset leaves the charts as they were, while rows already upserted stay |
| Assembler.ProcessAssets | weekly_prices.py:256-345 | chart entries are only added, only for the assets given, and stay well-shaped; stale-only changes neither store nor calls |
| Assembler.ProcessAssetsGrowth | weekly_prices.py:256-345 | the batch writes only the rows of the tickers it was given and removes nothing |
| Assembler.ModeOf | weekly_prices.py:190-251 | fails exactly when no non-zero trading-day count is given, both dates are given and one of them does not parse; the trading-day mode is chosen exactly for a non-zero count, with that count; a calendar window ends today unless both dates are given, and is then the two parsed dates |
| Assembler.FetchAssetHistory | weekly_prices.py:174-345 | fails exactly when the mode does: never with a non-zero trading-day count, otherwise on a malformed explicit date; chart entries are keyed by given asset names and well-shaped; only the given tickers' rows change; stale-only makes no call and writes nothing |
| Assembler.ProcessAssetsIsolation | weekly_prices.py:256-345 | with distinct names, an asset has a chart entry exactly when its own processing succeeded on the store the assets before it left, the entry is that series, and the batch ends with the store the last asset left |
| Assembler.FetchAssetHistoryCharts | weekly_prices.py:174-345 | with distinct names, each asset is charted exactly when its own processing succeeded, with that series, whatever the other assets did |
| Assembler.RunFetchAssetHistory | weekly_prices.py:256-345 | the loop over the assets computes the same batch as the fold, and stale-only makes no call |
| Assembler.BuildAssetsPayload | weekly_prices.py:348-366 | entries follow the asset-map order as a subsequence; every asset with non-empty chart data is present; each entry repeats its chart data and takes `current` as the last close |
| Handler.Strip | weekly_prices.py:1441 | the result is an infix reached by dropping only whitespace at both ends, and neither starts nor ends with whitespace |
| Handler.StripIdempotent | weekly_prices.py:1441 | stripping twice is stripping once |
| Handler.SplitOn | weekly_prices.py:1441 | at least one piece, none containing the separator |
| Handler.JoinSplit | weekly_prices.py:1441 | joining the pieces of a split gives back the text |
| Handler.SplitJoin | weekly_prices.py:1441 | splitting a join of separator-free pieces gives back the pieces |
| Handler.FilterAssets | weekly_prices.py:1440-1444 | without a non-empty filter, the whole registry; with one, exactly the registry entries whose ticker was requested, in registry order |
| Handler.ParseInt | weekly_prices.py:1451 | blank text is rejected; a negative result comes from a leading minus |
| Handler.ParseShowInt | weekly_prices.py:1451 | `int(str(n)) == n` for every integer |
| Handler.ParseIntPadded | weekly_prices.py:1451 | whitespace around a text does not change what `int()` reads |
| Handler.ParseIntAcceptsSpellings | weekly_prices.py:1451 | whitespace, at most one `+` or `-`, digit groups and whitespace are read as the signed value of the digits |
| Handler.ParseIntOnlySpellings | weekly_prices.py:1451 | whatever `int()` accepts has that shape, and its value is the one the shape denotes; with the previous row, exactly those texts are accepted |
| Handler.ParsePlusSign | weekly_prices.py:1451 | a leading `+` before digit groups does not change the value |
| Handler.ParseLeadingZero | weekly_prices.py:1451 | a leading zero before digit groups does not change the value |
| Handler.ParseUnderscore | weekly_prices.py:1451 | one underscore between two digit groups does not change the value |
| Handler.TradingDaysParam | weekly_prices.py:1446-1454 | a non-empty value `int()` accepts gives that value clamped to at least 1; anything else turns the mode off |
| Handler.Normalize | weekly_prices.py:1440-1504 | explicit dates only when both are non-empty, and then both; a period only when neither they nor a trading-day count apply, and it is the given period or `7d` when that is missing or empty; the count is at least 1; stale-only exactly for `stale=true`, forced exactly for `refresh=true` without it |
| Handler.ApiPrices | weekly_prices.py:1420-1522 | fails exactly when the history call does; the payload lists filtered assets in registry order with `current` their last close; a stale request makes no call and writes nothing |
| Handler.SubsequenceDistinct | weekly_prices.py:1440-1444 | leaving assets out of a map with distinct names keeps the names distinct |
| Handler.ApiPricesPayload | weekly_prices.py:1497-1506 | a filtered asset is in the payload exactly when its own processing succeeded, and its entry carries that series' dates and closes |
| Scenarios.EndToEndScenario | weekly_prices.py:256-321 | an empty store, a live week and an upstream holding three rows: calls for the last two days then the whole week, exactly those rows stored, the answer ascending with current 9.8 and change -2% |
| Scenarios.WindowedProviderAnswersScenario | weekly_prices.py:296-298 | an upstream answering half-open ranges gives nothing for the last two days and all three rows for the week |
| Resolve.ResolveFormatted | weekly_prices.py:158-165 | explicit dates written as `strftime` writes them resolve to the window between their day numbers, whatever the period and today |
| Scenarios.ScenarioWeek | weekly_prices.py:158-165 | an explicit start and an end six days later in the same month resolve to the seven-day window starting at the start's day number |
| Scenarios.ScenarioSpellings | weekly_prices.py:252-253 | the first and seventh of January 2024 are written `2024-01-01` and `2024-01-07` |
| Scenarios.ChangePercentExamples | weekly_prices.py:313-320 | one point has no change; closes 100 then 110 rise by 10% |

## Left out

- The market-data library: the provider is a function parameter. Its rows
  come in any order, and an exception is an `Err`.
- SQLite itself, `init_db`, `get_db_stats` and the directory setup: the
  table is a map keyed by its primary key.
- The `updated_at` column: it is never read, so it is not stored.
- Floating point: closes are exact reals. NaN, rounding and the `:.2f`
  formatting of prices and changes are not modelled.
- The day labels (`%m-%d`): series carry day numbers.
- The results table, its `N일전` keys, and the `range_label` and `source`
  fields of the response metadata are presentation only.
- `datetime.now()`: the current date is the parameter `today`.
- Logging and timing calls.
- The Flask application apart from `api_prices`, and the HTML and
  JavaScript dashboard.
- Chart rendering, the command-line entry point and `.env` loading.
- Python `date` overflow: the model's days are unbounded integers, so
  `end - 1 day` and `max + 1 day` near year 1 or year 9999 do not raise
  `OverflowError`.
- Unicode digits: `strptime` and `int()` also accept non-ASCII decimal
  digits; the model accepts ASCII digits only.
- IsoDate.FormatDate: years below 1000 are written with four digits;
  platforms whose `%Y` writes fewer digits are not modelled.
- PriceStore.SortByDate: the order among fetched rows with the same date
  is stable here. pandas does not promise a stable `sort_index`, so when
  two rows share a date, which one is upserted last is left open.
- Handler.ParseInt: `int()` limits how many digits it converts; longer
  texts raise ValueError there but parse here.
- The provider is one function per run: a repeated identical request within
  one run gets the same answer. Two separate runs may use different
  providers (`Assembler.MonotoneCoverage`).
- Concurrent requests and the shared database handle: the model is
  sequential.

=== FILE: assembler.dfy ===
/** Per-asset reconciliation and the batch over all assets
    (`fetch_asset_history`, weekly_prices.py:174-345) and the payload the
    HTTP layer returns (`build_assets_payload`, weekly_prices.py:348-366).
    The upstream market-data provider is a parameter; every call made to it
    is recorded, in order, so that properties about when it is called can be
    stated. */
module Assembler {
  import opened Wrappers
  import opened IsoDate
  import opened Resolve
  import opened PriceStore
  import opened GapPlan

  /** A call to the provider. */
  datatype FetchRequest =
    | History(ticker: Ticker, start: Date, endExclusive: Date)   // stock.history(start=…, end=…)
    | TrailingMonth(ticker: Ticker)                               // stock.history(period="1mo")

  /** Any exception raised by a provider call. */
  datatype FetchError = ProviderFailure(reason: string)

  /** The provider: the rows (in any order, possibly none) it returns for a
      request, or the exception it raises. */
  type Provider = FetchRequest -> Result<seq<Row>, FetchError>

  /** One asset's answer: the chart entries `chart_data`, `chart_dates`
      and `chart_changes` hold for it, plus the table's current price. */
  datatype Series = Series(
    name: string,
    ticker: Ticker,
    dates: seq<Date>,
    closes: seq<real>,
    current: real,
    changePct: Option<real>)

  /** Why an asset is left out of the result. */
  datatype Skip =
    | NoRows                      // nothing cached after the re-read
    | FetchFailed(error: FetchError)
    | ZeroBaseClose               // `/ start_price` raised ZeroDivisionError

  /** What processing one asset leaves behind: the store (upserts already
      committed stay even when a later call fails), the provider calls made,
      and the series or the reason for skipping. */
  datatype AssetOutcome = AssetOutcome(store: Store, calls: seq<FetchRequest>, series: Result<Series, Skip>)

  /** How the rows of an asset are chosen. */
  datatype Mode = CalendarWindow(window: Window) | TradingDays(count: int)

  /** A well-formed series: as many dates as closes, at least one point,
      `current` the last close. */
  predicate WellShaped(s: Series) {
    && |s.dates| == |s.closes| > 0
    && s.current == s.closes[|s.closes| - 1]
  }

  /** The summary block (weekly_prices.py:209-225 and 307-321): an empty
      read is skipped (`continue` in live mode, an IndexError on
      `close_values[-1]` in stale mode); `current` is the last close; the
      change is `(last - first) / first * 100` with two or more points and
      absent otherwise; a zero first close with two or more points raises
      ZeroDivisionError, which skips the asset. */
  function Summarize(name: string, t: Ticker, rows: seq<Row>): (r: Result<Series, Skip>)
    ensures r.Ok? <==> |rows| > 0 && (|rows| < 2 || rows[0].1 != 0.0)
    ensures r.Err? ==> r.error == (if |rows| == 0 then NoRows else ZeroBaseClose)
    ensures r.Ok? ==> r.value.name == name && r.value.ticker == t && WellShaped(r.value)
    ensures r.Ok? ==>
      && |r.value.dates| == |rows|
      && forall i :: 0 <= i < |rows| ==> r.value.dates[i] == rows[i].0 && r.value.closes[i] == rows[i].1
  {
    if |rows| == 0 then Err(NoRows)
    else
      var dates := seq(|rows|, i requires 0 <= i < |rows| => rows[i].0);
      var closes := seq(|rows|, i requires 0 <= i < |rows| => rows[i].1);
      var first, last := closes[0], closes[|closes| - 1];
      if |closes| >= 2 && first == 0.0 then Err(ZeroBaseClose)
      else
        var change := if |closes| >= 2 then Some((last - first) / first * 100.0) else None;
        Ok(Series(name, t, dates, closes, last, change))
  }

  /** The change of a summary is absent for a single point and otherwise
      the percentage move from the first close to the last. */
  lemma SummarizeChange(name: string, t: Ticker, rows: seq<Row>)
    requires Summarize(name, t, rows).Ok?
    ensures var c := Summarize(name, t, rows).value.changePct;
      && (c.None? <==> |rows| < 2)
      && (c.Some? ==> c.value * rows[0].1 == (rows[|rows| - 1].1 - rows[0].1) * 100.0)
  {
  }

  /** Only the rows of ticker `t` may differ between `s` and `s'`, and
      nothing is removed. */
  predicate OnlyTickerGrows(s: Store, s': Store, t: Ticker) {
    && s.Keys <= s'.Keys
    && forall k :: k in s' && k.0 != t ==> k in s && s'[k] == s[k]
  }

  /** Every row's date has a stored row for ticker `t`. */
  predicate AllStored(s: Store, t: Ticker, rows: seq<Row>) {
    forall j :: 0 <= j < |rows| ==> (t, rows[j].0) in s
  }

  /** The rows of a sequence, as a set. */
  function RowSet(rows: seq<Row>): set<Row> {
    set j | 0 <= j < |rows| :: rows[j]
  }

  /** The dates a set of rows covers. */
  function DaysIn(rows: set<Row>): set<Date> {
    set x | x in rows :: x.0
  }

  /** `s'` is `s` with `rows` merged in for ticker `t`: its keys are those
      of `s` plus `(t, d)` for every date `d` of `rows`, every other key
      keeps its close, and every merged day holds a close that one of
      `rows` gave for that day. */
  ghost predicate MergedFrom(s: Store, s': Store, t: Ticker, rows: set<Row>) {
    && (forall k :: k in s' <==> k in s || (k.0 == t && k.1 in DaysIn(rows)))
    && (forall k :: k in s && !(k.0 == t && k.1 in DaysIn(rows)) ==> s'[k] == s[k])
    && (forall k :: k in s' && k.0 == t && k.1 in DaysIn(rows) ==> (k.1, s'[k]) in rows)
  }

  /** Merging `a` and then `b` is merging their union: a day `b` covers
      holds a close from `b`, and a day only `a` covers one from `a`. */
  lemma MergedCompose(s: Store, s1: Store, s2: Store, t: Ticker, a: set<Row>, b: set<Row>)
    requires MergedFrom(s, s1, t, a) && MergedFrom(s1, s2, t, b)
    ensures MergedFrom(s, s2, t, a + b)
    ensures forall k :: k in s2 && k.0 == t && k.1 in DaysIn(b) ==> (k.1, s2[k]) in b
    ensures forall k :: k in s2 && k.0 == t && k.1 in DaysIn(a) - DaysIn(b) ==> (k.1, s2[k]) in a
  {
    assert DaysIn(a + b) == DaysIn(a) + DaysIn(b) by {
      forall d | d in DaysIn(a + b) ensures d in DaysIn(a) + DaysIn(b) {
        var x :| x in a + b && x.0 == d;
      }
    }
  }

  lemma GrowthTransitive(s: Store, s': Store, s'': Store, t: Ticker)
    requires OnlyTickerGrows(s, s', t) && OnlyTickerGrows(s', s'', t)
    ensures OnlyTickerGrows(s, s'', t)
  {
  }

  lemma SortKeepsDates(rows: seq<Row>)
    ensures DatesOf(SortByDate(rows)) == DatesOf(rows)
  {
    var sorted := SortByDate(rows);
    forall d | d in DatesOf(rows) ensures d in DatesOf(sorted) {
      var i :| 0 <= i < |rows| && rows[i].0 == d;
      assert rows[i] in multiset(sorted);
    }
    forall d | d in DatesOf(sorted) ensures d in DatesOf(rows) {
      var i :| 0 <= i < |sorted| && sorted[i].0 == d;
      assert sorted[i] in multiset(rows);
    }
  }

  /** `if not hist.empty: upsert_prices(ticker, hist.sort_index())`
      (weekly_prices.py:299-301). */
  function MergeFetched(s: Store, t: Ticker, hist: seq<Row>): Store {
    if |hist| == 0 then s else Upsert(s, t, SortByDate(hist))
  }

  /** After merging, every fetched date is stored for the ticker and only
      the ticker's rows changed. */
  lemma MergeFetchedStores(s: Store, t: Ticker, hist: seq<Row>)
    ensures AllStored(MergeFetched(s, t, hist), t, hist)
    ensures OnlyTickerGrows(s, MergeFetched(s, t, hist), t)
    ensures MergedFrom(s, MergeFetched(s, t, hist), t, RowSet(hist))
  {
    RowSetDays(hist);
    if |hist| > 0 {
      var s' := MergeFetched(s, t, hist);
      var sorted := SortByDate(hist);
      UpsertWrites(s, t, sorted);
      SortKeepsDates(hist);
      assert forall j :: 0 <= j < |hist| ==> hist[j].0 in DatesOf(hist);
      forall k | k in s' && k.0 == t && k.1 in DatesOf(hist)
        ensures (k.1, s'[k]) in RowSet(hist)
      {
        var i := LastIndexExists(sorted, k.1);
        assert sorted[i] in multiset(hist);
        var j :| 0 <= j < |hist| && hist[j] == sorted[i];
      }
    }
  }

  /** The dates of a sequence's row set are the sequence's dates. */
  lemma RowSetDays(rows: seq<Row>)
    ensures DaysIn(RowSet(rows)) == DatesOf(rows)
  {
    forall d | d in DatesOf(rows) ensures d in DaysIn(RowSet(rows)) {
      var j :| 0 <= j < |rows| && rows[j].0 == d;
      assert rows[j] in RowSet(rows);
    }
  }

  /** One call of the window loop (weekly_prices.py:295-301): fetch with
      the exclusive end `range_end + 1`, and upsert the date-sorted rows
      when there are any. */
  function WindowRequest(t: Ticker, w: Window): FetchRequest {
    History(t, w.lo, w.hi + 1)
  }

  /** The state the window loop leaves: the store, the calls made, and
      the exception that ended it early, if any. */
  datatype Fetched = Fetched(store: Store, calls: seq<FetchRequest>, failure: Option<FetchError>)

  /** The provider returned rows for `call` instead of raising. */
  predicate Answered(provider: Provider, call: FetchRequest) {
    provider(call).Ok?
  }

  /** What the provider said during the window loop: the calls made, the
      rows of each answered call in call order, and the exception that
      ended the loop early, if any. */
  datatype Replies = Replies(calls: seq<FetchRequest>, answers: seq<seq<Row>>, failure: Option<FetchError>)

  /** The provider side of the window loop of weekly_prices.py:295-301:
      calls are made in plan order, one per window, and stop at the first
      that raises; every call before it was answered. */
  function CallWindows(t: Ticker, plan: seq<Window>, provider: Provider): Replies
    decreases |plan|
  {
    if |plan| == 0 then Replies([], [], None)
    else
      var call := WindowRequest(t, plan[0]);
      match provider(call)
      case Err(e) => Replies([call], [], Some(e))
      case Ok(hist) =>
        var rest := CallWindows(t, plan[1..], provider);
        Replies([call] + rest.calls, [hist] + rest.answers, rest.failure)
  }

  /** What the window loop did: at most one call per window, the i-th
      call for the i-th window, every recorded answer what its call
      returned; without a failure every window was called and answered,
      and with one the last call is the one that raised it. */
  lemma {:induction false} CallWindowsFacts(t: Ticker, plan: seq<Window>, provider: Provider)
    ensures var r := CallWindows(t, plan, provider);
      && |r.calls| <= |plan|
      && (forall i :: 0 <= i < |r.calls| ==> r.calls[i] == WindowRequest(t, plan[i]))
      && (forall i :: 0 <= i < |r.answers| ==> i < |r.calls| && provider(r.calls[i]) == Ok(r.answers[i]))
      && (r.failure.None? ==> |r.calls| == |plan| && |r.answers| == |plan|)
      && (r.failure.Some? ==>
            && |r.calls| == |r.answers| + 1
            && provider(r.calls[|r.calls| - 1]) == Err(r.failure.value))
    decreases |plan|
  {
    if |plan| > 0 {
      var call := WindowRequest(t, plan[0]);
      if provider(call).Ok? {
        CallWindowsFacts(t, plan[1..], provider);
        var rest := CallWindows(t, plan[1..], provider);
        var r := CallWindows(t, plan, provider);
        assert r.calls == [call] + rest.calls && r.answers == [provider(call).value] + rest.answers;
        forall i | 1 <= i < |r.calls|
          ensures r.calls[i] == rest.calls[i - 1] && plan[i] == plan[1..][i - 1]
        {
        }
        forall i | 1 <= i < |r.answers|
          ensures r.answers[i] == rest.answers[i - 1]
        {
        }
      }
    }
  }

  /** The upserts of the window loop: each answer merged in call order. */
  function MergeAll(s: Store, t: Ticker, answers: seq<seq<Row>>): Store
    decreases |answers|
  {
    if |answers| == 0 then s else MergeAll(MergeFetched(s, t, answers[0]), t, answers[1..])
  }

  /** After merging the answers every date of each of them is stored for
      the ticker, and only the ticker's rows changed. */
  lemma {:induction false} MergeAllStores(s: Store, t: Ticker, answers: seq<seq<Row>>)
    ensures OnlyTickerGrows(s, MergeAll(s, t, answers), t)
    ensures forall i :: 0 <= i < |answers| ==> AllStored(MergeAll(s, t, answers), t, answers[i])
    ensures MergedFrom(s, MergeAll(s, t, answers), t, AnswerRows(answers))
    decreases |answers|
  {
    if |answers| > 0 {
      var s1 := MergeFetched(s, t, answers[0]);
      var r := MergeAll(s, t, answers);
      MergeFetchedStores(s, t, answers[0]);
      MergeAllStores(s1, t, answers[1..]);
      GrowthTransitive(s, s1, r, t);
      assert forall i :: 1 <= i < |answers| ==> answers[i] == answers[1..][i - 1];
      AnswerRowsCons(answers);
      MergedCompose(s, s1, r, t, RowSet(answers[0]), AnswerRows(answers[1..]));
    }
  }

  /** Every row of every answer, as a set. */
  function AnswerRows(answers: seq<seq<Row>>): set<Row> {
    set i, j | 0 <= i < |answers| && 0 <= j < |answers[i]| :: answers[i][j]
  }

  lemma AnswerRowsCons(answers: seq<seq<Row>>)
    requires |answers| > 0
    ensures AnswerRows(answers) == RowSet(answers[0]) + AnswerRows(answers[1..])
  {
    forall x | x in AnswerRows(answers) ensures x in RowSet(answers[0]) + AnswerRows(answers[1..]) {
      var i, j :| 0 <= i < |answers| && 0 <= j < |answers[i]| && answers[i][j] == x;
      if i > 0 {
        assert answers[1..][i - 1][j] == x;
      }
    }
    forall x | x in AnswerRows(answers[1..]) ensures x in AnswerRows(answers) {
      var i, j :| 0 <= i < |answers[1..]| && 0 <= j < |answers[1..][i]| && answers[1..][i][j] == x;
      assert answers[i + 1][j] == x;
    }
  }

  /** The window loop of weekly_prices.py:295-301 over `plan`: the calls
      and their outcome, and the store with every answer upserted. */
  function FetchWindows(s: Store, t: Ticker, plan: seq<Window>, provider: Provider): Fetched {
    var r := CallWindows(t, plan, provider);
    Fetched(MergeAll(s, t, r.answers), r.calls, r.failure)
  }

  /** Every row some answered call returned, as a set. */
  function CallRows(provider: Provider, calls: seq<FetchRequest>): set<Row> {
    set i, j | 0 <= i < |calls| && provider(calls[i]).Ok? && 0 <= j < |provider(calls[i]).value|
      :: provider(calls[i]).value[j]
  }

  /** The rows the window loop recorded are the rows its answered calls
      returned. */
  lemma RecordedRows(t: Ticker, plan: seq<Window>, provider: Provider)
    ensures var c := CallWindows(t, plan, provider);
      AnswerRows(c.answers) == CallRows(provider, c.calls)
  {
    var c := CallWindows(t, plan, provider);
    CallRowsRecorded(t, plan, provider);
    RecordedCallRows(t, plan, provider);
  }

  lemma CallRowsRecorded(t: Ticker, plan: seq<Window>, provider: Provider)
    ensures var c := CallWindows(t, plan, provider);
      CallRows(provider, c.calls) <= AnswerRows(c.answers)
  {
    var c := CallWindows(t, plan, provider);
    CallWindowsFacts(t, plan, provider);
    forall x | x in CallRows(provider, c.calls) ensures x in AnswerRows(c.answers) {
      var i, j :| 0 <= i < |c.calls| && provider(c.calls[i]).Ok? && 0 <= j < |provider(c.calls[i]).value|
        && provider(c.calls[i]).value[j] == x;
      if c.failure.Some? {
        assert i != |c.calls| - 1;
      }
      assert c.answers[i][j] == x;
    }
  }

  lemma RecordedCallRows(t: Ticker, plan: seq<Window>, provider: Provider)
    ensures var c := CallWindows(t, plan, provider);
      AnswerRows(c.answers) <= CallRows(provider, c.calls)
  {
    var c := CallWindows(t, plan, provider);
    CallWindowsFacts(t, plan, provider);
    forall x | x in AnswerRows(c.answers) ensures x in CallRows(provider, c.calls) {
      var i, j :| 0 <= i < |c.answers| && 0 <= j < |c.answers[i]| && c.answers[i][j] == x;
      assert provider(c.calls[i]).value[j] == x;
    }
  }

  /** After the window loop every date a successful call returned is
      stored for the ticker, and no other ticker's rows changed; the
      ticker's new and overwritten days hold closes those calls returned. */
  lemma FetchWindowsStores(s: Store, t: Ticker, plan: seq<Window>, provider: Provider)
    ensures var r := FetchWindows(s, t, plan, provider);
      && OnlyTickerGrows(s, r.store, t)
      && (forall i :: 0 <= i < |r.calls| && Answered(provider, r.calls[i]) ==>
            AllStored(r.store, t, provider(r.calls[i]).value))
      && MergedFrom(s, r.store, t, CallRows(provider, r.calls))
  {
    var c := CallWindows(t, plan, provider);
    var r := FetchWindows(s, t, plan, provider);
    assert MergedFrom(s, r.store, t, CallRows(provider, r.calls)) by {
      MergeAllStores(s, t, c.answers);
      RecordedRows(t, plan, provider);
    }
    assert r.store == MergeAll(s, t, c.answers) && r.calls == c.calls;
    assert OnlyTickerGrows(s, r.store, t) by {
      MergeAllStores(s, t, c.answers);
    }
    forall i | 0 <= i < |r.calls| && Answered(provider, r.calls[i])
      ensures AllStored(r.store, t, provider(r.calls[i]).value)
    {
      assert i < |c.answers| && provider(r.calls[i]).value == c.answers[i] by {
        CallWindowsFacts(t, plan, provider);
      }
      assert AllStored(r.store, t, c.answers[i]) by {
        MergeAllStores(s, t, c.answers);
      }
    }
  }

  /** The extent of a window's cached rows lies inside the window. */
  lemma CachedExtentWithin(s: Store, t: Ticker, req: Window)
    ensures var e := Extent(RangeScan(s, t, req.lo, req.hi));
      e.Some? ==> req.lo <= e.value.lo <= e.value.hi <= req.hi
  {
    var rows := RangeScan(s, t, req.lo, req.hi);
    RangeScanReads(s, t, req.lo, req.hi);
    ExtentBounds(rows);
    if |rows| > 0 {
      assert req.lo <= rows[0].0 <= req.hi;
    }
  }

  /** Calls of the window loop name the ticker and a non-empty window
      inside the request. */
  predicate CallsWithin(calls: seq<FetchRequest>, t: Ticker, req: Window) {
    forall i :: 0 <= i < |calls| ==>
      && calls[i].History? && calls[i].ticker == t
      && req.lo <= calls[i].start < calls[i].endExclusive <= req.hi + 1
  }

  lemma PlannedCallsWithin(s: Store, t: Ticker, req: Window, policy: Policy, provider: Provider)
    ensures var plan := Plan(req, Extent(RangeScan(s, t, req.lo, req.hi)), policy);
      CallsWithin(FetchWindows(s, t, plan, provider).calls, t, req)
  {
    CachedExtentWithin(s, t, req);
    PlanWithin(req, Extent(RangeScan(s, t, req.lo, req.hi)), policy);
    var plan := Plan(req, Extent(RangeScan(s, t, req.lo, req.hi)), policy);
    CallWindowsFacts(t, plan, provider);
    var calls := FetchWindows(s, t, plan, provider).calls;
    forall i | 0 <= i < |calls|
      ensures calls[i].History? && calls[i].ticker == t
      ensures req.lo <= calls[i].start < calls[i].endExclusive <= req.hi + 1
    {
      assert plan[i] in plan;
    }
  }

  /** Calendar-window processing of one asset (weekly_prices.py:256-343):
      read the cached rows inside the window, plan the missing windows from
      their extent, fetch and merge them, then answer from a fresh read of
      the store. Stale-only answers from the first read and calls nothing. */
  function CalendarAsset(s: Store, name: string, t: Ticker, req: Window, policy: Policy, provider: Provider)
    : (o: AssetOutcome)
    ensures policy == StaleOnly ==> o.store == s && o.calls == []
    ensures o.series.Err? && o.series.error.FetchFailed? ==> policy != StaleOnly && |o.calls| > 0
    ensures !(o.series.Err? && o.series.error.FetchFailed?) ==>
      o.series == Summarize(name, t, RangeScan(o.store, t, req.lo, req.hi))
  {
    var cached := RangeScan(s, t, req.lo, req.hi);
    var plan := Plan(req, Extent(cached), policy);
    if policy == StaleOnly then AssetOutcome(s, [], Summarize(name, t, cached))
    else
      var f := FetchWindows(s, t, plan, provider);
      match f.failure
      case Some(e) => AssetOutcome(f.store, f.calls, Err(FetchFailed(e)))
      case None => AssetOutcome(f.store, f.calls, Summarize(name, t, RangeScan(f.store, t, req.lo, req.hi)))
  }

  /** Every call of a calendar run names its ticker and a non-empty window
      inside the request. */
  lemma CalendarCallsWithin(s: Store, name: string, t: Ticker, req: Window, policy: Policy, provider: Provider)
    ensures CallsWithin(CalendarAsset(s, name, t, req, policy, provider).calls, t, req)
  {
    if policy != StaleOnly {
      PlannedCallsWithin(s, t, req, policy, provider);
    }
  }

  /** A live calendar run over a non-empty window always starts by
      refetching its last day or two, whatever is cached. */
  lemma CalendarRefreshesFirst(s: Store, name: string, t: Ticker, req: Window, provider: Provider)
    requires req.lo <= req.hi
    ensures var o := CalendarAsset(s, name, t, req, Live, provider);
      |o.calls| > 0 && o.calls[0] == History(t, RefreshStart(req), req.hi + 1)
  {
    var plan := Plan(req, Extent(RangeScan(s, t, req.lo, req.hi)), Live);
    var r := CallWindows(t, plan, provider);
    assert CalendarAsset(s, name, t, req, Live, provider).calls == r.calls by {
      CalendarRun(s, name, t, req, Live, provider);
    }
    assert |r.calls| > 0 && r.calls[0] == WindowRequest(t, plan[0]) by {
      CallWindowsFacts(t, plan, provider);
    }
  }

  /** Trading-day-count processing of one asset (weekly_prices.py:190-248):
      read the newest `n` rows; unless stale-only, when forced or short of
      `n` rows, fetch the trailing month and upsert only its newest `n`
      rows; then answer from a fresh read of the newest `n` rows. */
  function TradingAsset(s: Store, name: string, t: Ticker, n: int, policy: Policy, provider: Provider)
    : (o: AssetOutcome)
    ensures o.calls != [] <==> policy != StaleOnly && (policy == ForceRefresh || |LastN(s, t, n)| < n)
    ensures o.calls != [] ==> o.calls == [TrailingMonth(t)]
    ensures o.calls == [] ==> o.store == s
    ensures o.calls != [] && Answered(provider, TrailingMonth(t)) ==>
      o.store == Upsert(s, t, LatestRows(provider(TrailingMonth(t)).value, n))
    ensures o.series.Err? && o.series.error.FetchFailed? ==> o.calls != [] && o.store == s
    ensures !(o.series.Err? && o.series.error.FetchFailed?) ==>
      o.series == Summarize(name, t, LastN(o.store, t, n))
  {
    var cached := LastN(s, t, n);
    if policy == StaleOnly then AssetOutcome(s, [], Summarize(name, t, cached))
    else if policy == ForceRefresh || |cached| < n then
      var call := TrailingMonth(t);
      match provider(call)
      case Err(e) => AssetOutcome(s, [call], Err(FetchFailed(e)))
      case Ok(hist) =>
        var s1 := if |hist| == 0 then s else Upsert(s, t, LatestRows(hist, n));
        AssetOutcome(s1, [call], Summarize(name, t, LastN(s1, t, n)))
    else AssetOutcome(s, [], Summarize(name, t, LastN(s, t, n)))
  }

  /** One asset of the batch, by the mode of the whole request. */
  function AssetStep(s: Store, asset: (string, Ticker), mode: Mode, policy: Policy, provider: Provider): AssetOutcome {
    match mode
    case CalendarWindow(w) => CalendarAsset(s, asset.0, asset.1, w, policy, provider)
    case TradingDays(n) => TradingAsset(s, asset.0, asset.1, n, policy, provider)
  }

  /** The batch so far: the store, every provider call in order, and the
      chart entries keyed by asset name. */
  datatype Batch = Batch(store: Store, calls: seq<FetchRequest>, charts: map<string, Series>)

  function Tickers(assets: seq<(string, Ticker)>): set<Ticker> {
    set i | 0 <= i < |assets| :: assets[i].1
  }

  function Names(assets: seq<(string, Ticker)>): set<string> {
    set i | 0 <= i < |assets| :: assets[i].0
  }

  /** Only rows of the given tickers may differ, and nothing is removed. */
  predicate OnlyTickersGrow(s: Store, s': Store, ts: set<Ticker>) {
    && s.Keys <= s'.Keys
    && forall k :: k in s' && k.0 !in ts ==> k in s && s'[k] == s[k]
  }

  predicate ChartsWellShaped(charts: map<string, Series>) {
    forall n :: n in charts ==> WellShaped(charts[n]) && charts[n].name == n
  }

  /** Adding one asset to the batch: a skipped asset adds no chart entry,
      and no asset ever removes or changes another's entry. */
  function ProcessAsset(b: Batch, asset: (string, Ticker), mode: Mode, policy: Policy, provider: Provider)
    : (r: Batch)
    ensures b.charts.Keys <= r.charts.Keys <= b.charts.Keys + {asset.0}
    ensures forall n :: n in b.charts && n != asset.0 ==> r.charts[n] == b.charts[n]
    ensures ChartsWellShaped(b.charts) ==> ChartsWellShaped(r.charts)
    ensures policy == StaleOnly ==> r.store == b.store && r.calls == b.calls
    ensures |r.calls| >= |b.calls| && r.calls[..|b.calls|] == b.calls
    ensures var o := AssetStep(b.store, asset, mode, policy, provider);
      && r.store == o.store && r.calls == b.calls + o.calls
      && (o.series.Ok? ==> r.charts == b.charts[asset.0 := o.series.value])
  {
    var o := AssetStep(b.store, asset, mode, policy, provider);
    Batch(o.store, b.calls + o.calls, if o.series.Ok? then b.charts[asset.0 := o.series.value] else b.charts)
  }

  /** A skipped asset (no rows, a provider exception, a zero base close)
      leaves every chart entry as it was, while the store keeps whatever
      was upserted before the failure. */
  lemma SkippedAssetKeepsCharts(b: Batch, asset: (string, Ticker), mode: Mode, policy: Policy, provider: Provider)
    requires AssetStep(b.store, asset, mode, policy, provider).series.Err?
    ensures ProcessAsset(b, asset, mode, policy, provider).charts == b.charts
    ensures ProcessAsset(b, asset, mode, policy, provider).store == AssetStep(b.store, asset, mode, policy, provider).store
  {
  }

  /** The loop over `assets.items()`, in order. */
  function ProcessAssets(b: Batch, assets: seq<(string, Ticker)>, mode: Mode, policy: Policy, provider: Provider)
    : (r: Batch)
    ensures b.charts.Keys <= r.charts.Keys <= b.charts.Keys + Names(assets)
    ensures ChartsWellShaped(b.charts) ==> ChartsWellShaped(r.charts)
    ensures policy == StaleOnly ==> r.store == b.store && r.calls == b.calls
    decreases |assets|
  {
    if |assets| == 0 then b
    else
      var init := assets[..|assets| - 1];
      assert Names(assets) == Names(init) + {assets[|assets| - 1].0} by {
        assert forall i :: 0 <= i < |init| ==> init[i] == assets[i];
      }
      ProcessAsset(ProcessAssets(b, init, mode, policy, provider), assets[|assets| - 1], mode, policy, provider)
  }

  /** One asset's processing writes only that asset's ticker. */
  lemma AssetStepGrowth(s: Store, asset: (string, Ticker), mode: Mode, policy: Policy, provider: Provider)
    ensures OnlyTickerGrows(s, AssetStep(s, asset, mode, policy, provider).store, asset.1)
  {
    var (name, t) := asset;
    match mode
    case CalendarWindow(req) =>
      CalendarAssetStores(s, name, t, req, policy, provider);
    case TradingDays(n) =>
      TradingAssetStores(s, name, t, n, policy, provider);
  }

  /** A trading-day run writes only its ticker and removes nothing. */
  lemma TradingAssetStores(s: Store, name: string, t: Ticker, n: int, policy: Policy, provider: Provider)
    ensures OnlyTickerGrows(s, TradingAsset(s, name, t, n, policy, provider).store, t)
  {
    var o := TradingAsset(s, name, t, n, policy, provider);
    if o.store != s {
      var hist := provider(TrailingMonth(t)).value;
      assert o.store == Upsert(s, t, LatestRows(hist, n));
      UpsertWrites(s, t, LatestRows(hist, n));
    }
  }

  /** The batch writes only rows of the tickers it was given, and removes
      nothing. */
  lemma {:induction false} ProcessAssetsGrowth(b: Batch, assets: seq<(string, Ticker)>, mode: Mode, policy: Policy, provider: Provider)
    ensures OnlyTickersGrow(b.store, ProcessAssets(b, assets, mode, policy, provider).store, Tickers(assets))
    decreases |assets|
  {
    if |assets| > 0 {
      var init := assets[..|assets| - 1];
      var last := assets[|assets| - 1];
      assert Tickers(assets) == Tickers(init) + {last.1} by {
        assert forall i :: 0 <= i < |init| ==> init[i] == assets[i];
      }
      var mid := ProcessAssets(b, init, mode, policy, provider);
      ProcessAssetsGrowth(b, init, mode, policy, provider);
      assert OnlyTickerGrows(mid.store, ProcessAssets(b, assets, mode, policy, provider).store, last.1) by {
        AssetStepGrowth(mid.store, last, mode, policy, provider);
      }
      GrowthStep(b.store, mid.store, ProcessAssets(b, assets, mode, policy, provider).store, Tickers(init), last.1);
    }
  }

  /** Growth in some tickers followed by growth in one more is growth in
      all of them. */
  lemma GrowthStep(s0: Store, s1: Store, s2: Store, ts: set<Ticker>, t: Ticker)
    requires OnlyTickersGrow(s0, s1, ts) && OnlyTickerGrows(s1, s2, t)
    ensures OnlyTickersGrow(s0, s2, ts + {t})
  {
  }

  /** What the processing of the `i`-th asset returned, run on the store
      the assets before it left. */
  function StepAt(b: Batch, assets: seq<(string, Ticker)>, i: int, mode: Mode, policy: Policy, provider: Provider)
    : AssetOutcome
    requires 0 <= i < |assets|
  {
    AssetStep(ProcessAssets(b, assets[..i], mode, policy, provider).store, assets[i], mode, policy, provider)
  }

  /** No display name occurs twice, as for the keys of a Python dict. */
  predicate DistinctNames(assets: seq<(string, Ticker)>) {
    forall i, j :: 0 <= i < j < |assets| ==> assets[i].0 != assets[j].0
  }

  /** The chart entry of `name` is there exactly when the processing
      outcome `o` succeeded, and is then its series. */
  predicate EntryIs(charts: map<string, Series>, name: string, o: AssetOutcome) {
    && (name in charts <==> o.series.Ok?)
    && (name in charts ==> charts[name] == o.series.value)
  }

  /** Partial-failure isolation: an asset has a chart entry after the
      batch exactly when its own processing succeeded, whatever the other
      assets did, and the entry is the series that processing returned.
      The batch ends with the store the last asset's processing left. */
  lemma {:induction false} ProcessAssetsIsolation(b: Batch, assets: seq<(string, Ticker)>, mode: Mode, policy: Policy, provider: Provider)
    requires DistinctNames(assets)
    requires forall i :: 0 <= i < |assets| ==> assets[i].0 !in b.charts
    ensures var r := ProcessAssets(b, assets, mode, policy, provider);
      && (|assets| > 0 ==> r.store == StepAt(b, assets, |assets| - 1, mode, policy, provider).store)
      && forall i :: 0 <= i < |assets| ==> EntryIs(r.charts, assets[i].0, StepAt(b, assets, i, mode, policy, provider))
    decreases |assets|
  {
    if |assets| > 0 {
      var n := |assets|;
      assert forall i :: 0 <= i < n - 1 ==>
        EntryIs(ProcessAssets(b, assets[..n - 1], mode, policy, provider).charts, assets[i].0,
                StepAt(b, assets[..n - 1], i, mode, policy, provider))
      by {
        var init := assets[..n - 1];
        assert forall i :: 0 <= i < n - 1 ==> init[i] == assets[i];
        ProcessAssetsIsolation(b, init, mode, policy, provider);
      }
      IsolationStep(b, assets, mode, policy, provider);
    }
  }

  /** One step of the isolation argument: the entries of the assets before
      the last one survive it, and the last one adds its own. */
  lemma IsolationStep(b: Batch, assets: seq<(string, Ticker)>, mode: Mode, policy: Policy, provider: Provider)
    requires |assets| > 0
    requires assets[|assets| - 1].0 !in b.charts
    requires forall i :: 0 <= i < |assets| - 1 ==> assets[i].0 != assets[|assets| - 1].0
    requires forall i :: 0 <= i < |assets| - 1 ==>
      EntryIs(ProcessAssets(b, assets[..|assets| - 1], mode, policy, provider).charts, assets[i].0,
              StepAt(b, assets[..|assets| - 1], i, mode, policy, provider))
    ensures var r := ProcessAssets(b, assets, mode, policy, provider);
      && r.store == StepAt(b, assets, |assets| - 1, mode, policy, provider).store
      && forall i :: 0 <= i < |assets| ==> EntryIs(r.charts, assets[i].0, StepAt(b, assets, i, mode, policy, provider))
  {
    var n := |assets|;
    var init := assets[..n - 1];
    assert assets[n - 1].0 !in ProcessAssets(b, init, mode, policy, provider).charts by {
      assert forall i :: 0 <= i < n - 1 ==> init[i] == assets[i];
      assert assets[n - 1].0 !in Names(init);
    }
    LastEntry(b, assets, mode, policy, provider);
    forall i | 0 <= i < n - 1
      ensures EntryIs(ProcessAssets(b, assets, mode, policy, provider).charts, assets[i].0, StepAt(b, assets, i, mode, policy, provider))
    {
      KeepEarlier(b, assets, i, mode, policy, provider);
    }
  }

  /** An asset before the last keeps its entry and its outcome when the
      last asset is processed. */
  lemma KeepEarlier(b: Batch, assets: seq<(string, Ticker)>, i: int, mode: Mode, policy: Policy, provider: Provider)
    requires 0 <= i < |assets| - 1 && assets[i].0 != assets[|assets| - 1].0
    requires EntryIs(ProcessAssets(b, assets[..|assets| - 1], mode, policy, provider).charts, assets[i].0,
                     StepAt(b, assets[..|assets| - 1], i, mode, policy, provider))
    ensures EntryIs(ProcessAssets(b, assets, mode, policy, provider).charts, assets[i].0, StepAt(b, assets, i, mode, policy, provider))
  {
    KeepEntry(b, assets, assets[i].0, StepAt(b, assets[..|assets| - 1], i, mode, policy, provider), mode, policy, provider);
    EntryShift(b, assets, i, ProcessAssets(b, assets, mode, policy, provider).charts, mode, policy, provider);
  }

  /** The last asset's entry is its own outcome when its name was not
      charted before, and the batch keeps its store. */
  lemma LastEntry(b: Batch, assets: seq<(string, Ticker)>, mode: Mode, policy: Policy, provider: Provider)
    requires |assets| > 0
    requires assets[|assets| - 1].0 !in ProcessAssets(b, assets[..|assets| - 1], mode, policy, provider).charts
    ensures var r := ProcessAssets(b, assets, mode, policy, provider);
      var o := StepAt(b, assets, |assets| - 1, mode, policy, provider);
      EntryIs(r.charts, assets[|assets| - 1].0, o) && r.store == o.store
  {
  }

  /** The last step keeps every other name's entry. */
  lemma KeepEntry(b: Batch, assets: seq<(string, Ticker)>, name: string, o: AssetOutcome, mode: Mode, policy: Policy, provider: Provider)
    requires |assets| > 0 && name != assets[|assets| - 1].0
    requires EntryIs(ProcessAssets(b, assets[..|assets| - 1], mode, policy, provider).charts, name, o)
    ensures EntryIs(ProcessAssets(b, assets, mode, policy, provider).charts, name, o)
  {
  }

  /** An earlier asset's outcome is the same in the batch without the last
      asset. */
  lemma EntryShift(b: Batch, assets: seq<(string, Ticker)>, i: int, charts: map<string, Series>, mode: Mode, policy: Policy, provider: Provider)
    requires 0 <= i < |assets| - 1
    requires EntryIs(charts, assets[i].0, StepAt(b, assets[..|assets| - 1], i, mode, policy, provider))
    ensures EntryIs(charts, assets[i].0, StepAt(b, assets, i, mode, policy, provider))
  {
    var init := assets[..|assets| - 1];
    assert init[..i] == assets[..i] && init[i] == assets[i];
  }

  /** A calendar run writes only its ticker, and every day an answered
      call returned is stored afterwards. */
  lemma CalendarAssetStores(s: Store, name: string, t: Ticker, req: Window, policy: Policy, provider: Provider)
    ensures var o := CalendarAsset(s, name, t, req, policy, provider);
      && OnlyTickerGrows(s, o.store, t)
      && (forall i :: 0 <= i < |o.calls| && Answered(provider, o.calls[i]) ==>
            AllStored(o.store, t, provider(o.calls[i]).value))
      && MergedFrom(s, o.store, t, CallRows(provider, o.calls))
  {
    if policy != StaleOnly {
      var plan := Plan(req, Extent(RangeScan(s, t, req.lo, req.hi)), policy);
      CalendarRun(s, name, t, req, policy, provider);
      FetchWindowsStores(s, t, plan, provider);
    }
  }

  /** Unless stale-only, a calendar run leaves the store and the calls of
      its window loop, and answers only when the loop did not fail. */
  lemma CalendarRun(s: Store, name: string, t: Ticker, req: Window, policy: Policy, provider: Provider)
    requires policy != StaleOnly
    ensures var o := CalendarAsset(s, name, t, req, policy, provider);
      var f := FetchWindows(s, t, Plan(req, Extent(RangeScan(s, t, req.lo, req.hi)), policy), provider);
      && o.store == f.store && o.calls == f.calls
      && (o.series.Ok? ==> f.failure.None?)
  {
  }

  /** Reconciling one window and then another keeps what was cached before
      and every day either run fetched, whatever each run's provider
      answered; a day the second run fetched holds its close, and a day
      only the first run fetched holds the first run's. */
  lemma MonotoneCoverage(s: Store, name: string, t: Ticker, req1: Window, p1: Policy, provider1: Provider,
                         req2: Window, p2: Policy, provider2: Provider)
    ensures var o1 := CalendarAsset(s, name, t, req1, p1, provider1);
      var o2 := CalendarAsset(o1.store, name, t, req2, p2, provider2);
      && s.Keys <= o2.store.Keys
      && (forall i :: 0 <= i < |o1.calls| && Answered(provider1, o1.calls[i]) ==>
            AllStored(o2.store, t, provider1(o1.calls[i]).value))
      && (forall i :: 0 <= i < |o2.calls| && Answered(provider2, o2.calls[i]) ==>
            AllStored(o2.store, t, provider2(o2.calls[i]).value))
      && MergedFrom(s, o2.store, t, CallRows(provider1, o1.calls) + CallRows(provider2, o2.calls))
      && (forall k :: k in o2.store && k.0 == t && k.1 in DaysIn(CallRows(provider2, o2.calls)) ==>
            (k.1, o2.store[k]) in CallRows(provider2, o2.calls))
      && (forall k ::
            (k in o2.store && k.0 == t && k.1 in DaysIn(CallRows(provider1, o1.calls)) - DaysIn(CallRows(provider2, o2.calls)))
            ==> (k.1, o2.store[k]) in CallRows(provider1, o1.calls))
  {
    var o1 := CalendarAsset(s, name, t, req1, p1, provider1);
    var o2 := CalendarAsset(o1.store, name, t, req2, p2, provider2);
    CalendarAssetStores(s, name, t, req1, p1, provider1);
    CalendarAssetStores(o1.store, name, t, req2, p2, provider2);
    MergedCompose(s, o1.store, o2.store, t, CallRows(provider1, o1.calls), CallRows(provider2, o2.calls));
  }


  /** A stored day inside the window is part of the answer read back. */
  lemma ReadBackHasStoredDay(s: Store, name: string, t: Ticker, req: Window, d: Date)
    requires (t, d) in s && req.lo <= d <= req.hi
    requires Summarize(name, t, RangeScan(s, t, req.lo, req.hi)).Ok?
    ensures d in Summarize(name, t, RangeScan(s, t, req.lo, req.hi)).value.dates
  {
    var rows := RangeScan(s, t, req.lo, req.hi);
    RangeScanReads(s, t, req.lo, req.hi);
    assert d in TickerDates(s, t);
    var j :| 0 <= j < |rows| && rows[j].0 == d;
    assert Summarize(name, t, rows).value.dates[j] == d;
  }

  /** After a live or forced calendar run that did not fail, every day a
      provider call returned inside the window is part of the answer. */
  lemma CalendarAnswerHasFetchedDays(s: Store, name: string, t: Ticker, req: Window, policy: Policy, provider: Provider)
    ensures var o := CalendarAsset(s, name, t, req, policy, provider);
      o.series.Ok? ==>
        forall i, d ::
          (0 <= i < |o.calls| && Answered(provider, o.calls[i])
           && d in DatesOf(provider(o.calls[i]).value) && req.lo <= d <= req.hi) ==>
          d in o.series.value.dates
  {
    var o := CalendarAsset(s, name, t, req, policy, provider);
    if o.series.Ok? && policy != StaleOnly {
      var plan := Plan(req, Extent(RangeScan(s, t, req.lo, req.hi)), policy);
      CalendarRun(s, name, t, req, policy, provider);
      FetchWindowsStores(s, t, plan, provider);
      forall i, d | 0 <= i < |o.calls| && Answered(provider, o.calls[i])
          && d in DatesOf(provider(o.calls[i]).value) && req.lo <= d <= req.hi
        ensures d in o.series.value.dates
      {
        var rows := provider(o.calls[i]).value;
        var j :| 0 <= j < |rows| && rows[j].0 == d;
        ReadBackHasStoredDay(o.store, name, t, req, d);
      }
    }
  }

  /** The arguments of `fetch_asset_history` that pick the rows. */
  datatype HistoryRequest = HistoryRequest(
    period: Option<string>,
    start: Option<string>,
    end: Option<string>,
    tradingDays: Option<int>)

  /** `if trading_days:` selects the trading-day mode for any non-zero
      count; otherwise the calendar window is resolved once for all assets,
      and a malformed explicit date aborts the whole call. */
  function ModeOf(req: HistoryRequest, today: Date): (r: Result<Mode, DateError>)
    ensures var counted := req.tradingDays.Some? && req.tradingDays.value != 0;
      && (r.Err? <==> !counted && Given(req.start) && Given(req.end)
                      && (ParseDate(req.start.value).Err? || ParseDate(req.end.value).Err?))
      && (r.Ok? ==> (r.value.TradingDays? <==> counted))
      && (r.Ok? && r.value.TradingDays? ==> r.value.count == req.tradingDays.value)
      && (r.Ok? && r.value.CalendarWindow? && !(Given(req.start) && Given(req.end)) ==> r.value.window.hi == today)
      && (r.Ok? && r.value.CalendarWindow? && Given(req.start) && Given(req.end) ==>
            r.value.window == Window(ParseDate(req.start.value).value, ParseDate(req.end.value).value))
  {
    if req.tradingDays.Some? && req.tradingDays.value != 0 then Ok(TradingDays(req.tradingDays.value))
    else
      match ResolveDateRange(req.period, req.start, req.end, today)
      case Ok(w) => Ok(CalendarWindow(w))
      case Err(e) => Err(e)
  }

  /** `fetch_asset_history` (weekly_prices.py:174-345) with the database
      as the store `s`, the provider as a parameter and `today` passed in.
      Chart entries are keyed by asset name and are always well-shaped;
      stale-only calls nothing and writes nothing. */
  function FetchAssetHistory(assets: seq<(string, Ticker)>, req: HistoryRequest, policy: Policy,
                             s: Store, provider: Provider, today: Date): (r: Result<Batch, DateError>)
    ensures r.Err? <==> ModeOf(req, today).Err?
    ensures r.Ok? ==> r.value.charts.Keys <= Names(assets) && ChartsWellShaped(r.value.charts)
    ensures r.Ok? && policy == StaleOnly ==> r.value.store == s && r.value.calls == []
    ensures r.Ok? ==> OnlyTickersGrow(s, r.value.store, Tickers(assets))
  {
    match ModeOf(req, today)
    case Err(e) => Err(e)
    case Ok(mode) =>
      ProcessAssetsGrowth(Batch(s, [], map[]), assets, mode, policy, provider);
      Ok(ProcessAssets(Batch(s, [], map[]), assets, mode, policy, provider))
  }

  /** Partial-failure isolation for the whole call: with distinct asset
      names, an asset is charted exactly when its own processing succeeded
      on the store the assets before it left, and its entry is that series. */
  lemma FetchAssetHistoryCharts(assets: seq<(string, Ticker)>, req: HistoryRequest, policy: Policy,
                                s: Store, provider: Provider, today: Date)
    requires DistinctNames(assets)
    ensures var r := FetchAssetHistory(assets, req, policy, s, provider, today);
      r.Ok? ==> forall i :: 0 <= i < |assets| ==>
        EntryIs(r.value.charts, assets[i].0, StepAt(Batch(s, [], map[]), assets, i, ModeOf(req, today).value, policy, provider))
  {
    if ModeOf(req, today).Ok? {
      ProcessAssetsIsolation(Batch(s, [], map[]), assets, ModeOf(req, today).value, policy, provider);
    }
  }

  /** The same batch computed by a loop over the assets in order. */
  method RunFetchAssetHistory(assets: seq<(string, Ticker)>, req: HistoryRequest, policy: Policy,
                              s: Store, provider: Provider, today: Date) returns (r: Result<Batch, DateError>)
    ensures r == FetchAssetHistory(assets, req, policy, s, provider, today)
    ensures r.Ok? && policy == StaleOnly ==> r.value.calls == [] && r.value.store == s
  {
    var mode := ModeOf(req, today);
    if mode.Err? {
      return Err(mode.error);
    }
    var start := Batch(s, [], map[]);
    var b := start;
    var i := 0;
    while i < |assets|
      invariant 0 <= i <= |assets|
      invariant b == ProcessAssets(start, assets[..i], mode.value, policy, provider)
    {
      ProcessAssetsSnoc(start, assets, i, mode.value, policy, provider);
      b := ProcessAsset(b, assets[i], mode.value, policy, provider);
      i := i + 1;
    }
    assert assets[..i] == assets;
    return Ok(b);
  }

  /** The batch over one more asset is one more step of the batch. */
  lemma ProcessAssetsSnoc(b: Batch, assets: seq<(string, Ticker)>, i: int, mode: Mode, policy: Policy, provider: Provider)
    requires 0 <= i < |assets|
    ensures ProcessAssets(b, assets[..i + 1], mode, policy, provider)
      == ProcessAsset(ProcessAssets(b, assets[..i], mode, policy, provider), assets[i], mode, policy, provider)
  {
    var prefix := assets[..i + 1];
    assert prefix[..i] == assets[..i] && prefix[i] == assets[i];
  }

  /** One element of the `assets` array the HTTP API returns. */
  datatype PayloadEntry = PayloadEntry(
    name: string,
    ticker: Ticker,
    dates: seq<Date>,
    closes: seq<real>,
    current: real,
    changePct: Option<real>)

  /** `xs` is `ys` with some elements left out, order kept. */
  predicate IsSubsequence<T(==)>(xs: seq<T>, ys: seq<T>)
    decreases |ys|
  {
    || |xs| == 0
    || (&& |ys| > 0
        && (|| IsSubsequence(xs, ys[1..])
            || (xs[0] == ys[0] && IsSubsequence(xs[1..], ys[1..]))))
  }

  function Labels(entries: seq<PayloadEntry>): (r: seq<(string, Ticker)>)
    ensures |r| == |entries|
    ensures forall i :: 0 <= i < |r| ==> r[i] == (entries[i].name, entries[i].ticker)
  {
    seq(|entries|, i requires 0 <= i < |entries| => (entries[i].name, entries[i].ticker))
  }

  /** An asset the payload keeps: it has a chart entry with dates and
      closes. */
  predicate Kept(asset: (string, Ticker), charts: map<string, Series>) {
    asset.0 in charts && |charts[asset.0].dates| > 0 && |charts[asset.0].closes| > 0
  }

  /** `build_assets_payload` (weekly_prices.py:348-366): the assets in the
      order of the asset map, leaving out any without a chart entry or with
      empty dates or closes; each entry repeats its chart data and takes
      `current` as its last close. */
  function BuildAssetsPayload(assets: seq<(string, Ticker)>, charts: map<string, Series>)
    : (r: seq<PayloadEntry>)
    ensures IsSubsequence(Labels(r), assets)
    ensures forall i :: 0 <= i < |assets| && Kept(assets[i], charts) ==>
      exists e :: e in r && (e.name, e.ticker) == assets[i]
    ensures forall e :: e in r ==>
      && e.name in charts && |e.dates| > 0 && |e.closes| > 0
      && e.dates == charts[e.name].dates && e.closes == charts[e.name].closes
      && e.changePct == charts[e.name].changePct
      && e.current == e.closes[|e.closes| - 1]
    decreases |assets|
  {
    if |assets| == 0 then []
    else
      var (name, ticker) := assets[0];
      var rest := BuildAssetsPayload(assets[1..], charts);
      assert forall i :: 1 <= i < |assets| ==> assets[i] == assets[1..][i - 1];
      if Kept(assets[0], charts) then
        var c := charts[name];
        var r := [PayloadEntry(name, ticker, c.dates, c.closes, c.closes[|c.closes| - 1], c.changePct)] + rest;
        assert Labels(r)[1..] == Labels(rest);
        r
      else rest
  }
}

=== FILE: gap_plan.dfy ===
/** The fetch planning of `fetch_asset_history` in calendar mode
    (weekly_prices.py:254, 266-290): from the requested window, the extent
    of what the cache already holds inside it, and the refresh policy,
    compute the inclusive day windows to ask the provider for. */
module GapPlan {
  import opened Wrappers
  import opened IsoDate
  import opened Resolve
  import opened PriceStore

  predicate WellFormed(plan: seq<Window>) {
    forall i :: 0 <= i < |plan| ==> plan[i].lo <= plan[i].hi
  }

  /** Day `d` lies in some planned window. */
  predicate Covered(plan: seq<Window>, d: Date) {
    exists w :: w in plan && w.lo <= d <= w.hi
  }

  /** Every planned window lies inside `req`. */
  predicate Within(plan: seq<Window>, req: Window) {
    forall w :: w in plan ==> req.lo <= w.lo && w.hi <= req.hi
  }

  predicate InExtent(extent: Option<Window>, d: Date) {
    extent.Some? && extent.value.lo <= d <= extent.value.hi
  }

  /** The single window `[lo, hi]`, or no window when the range is
      empty. */
  function Gap(lo: Date, hi: Date): seq<Window> {
    if lo > hi then [] else [Window(lo, hi)]
  }

  /** `add_range` (weekly_prices.py:273-276): append `[lo, hi]` unless it is
      empty. */
  function AddRange(plan: seq<Window>, lo: Date, hi: Date): (r: seq<Window>)
    ensures WellFormed(plan) ==> WellFormed(r)
  {
    plan + Gap(lo, hi)
  }

  /** After `add_range` the planned windows are the old ones plus `[lo, hi]`
      if it is non-empty, and a day is covered exactly when it was before
      or it lies in `[lo, hi]`. */
  lemma AddRangeCovers(plan: seq<Window>, lo: Date, hi: Date)
    ensures forall w :: w in AddRange(plan, lo, hi) <==> w in plan || (lo <= hi && w == Window(lo, hi))
    ensures forall d :: Covered(AddRange(plan, lo, hi), d) <==> Covered(plan, d) || lo <= d <= hi
  {
    var r := AddRange(plan, lo, hi);
    if lo <= hi {
      assert forall d :: lo <= d <= hi ==> Window(lo, hi) in r && Covered(r, d);
    }
  }

  /** `min(cached_dates)` and `max(cached_dates)` (weekly_prices.py:267-269),
      or nothing when no row is cached. */
  function Extent(rows: seq<Row>): Option<Window>
  {
    if |rows| == 0 then None
    else
      var d := rows[0].0;
      match Extent(rows[1..])
      case None => Some(Window(d, d))
      case Some(w) => Some(Window(if d < w.lo then d else w.lo, if d > w.hi then d else w.hi))
  }

  /** The extent is absent exactly for no rows; otherwise its ends are
      dates of the rows and every row lies between them. */
  lemma {:induction false} ExtentBounds(rows: seq<Row>)
    ensures var e := Extent(rows);
      && (e.None? <==> |rows| == 0)
      && (e.Some? ==> e.value.lo in DatesOf(rows) && e.value.hi in DatesOf(rows))
      && (e.Some? ==> forall i :: 0 <= i < |rows| ==> e.value.lo <= rows[i].0 <= e.value.hi)
  {
    if |rows| > 0 {
      ExtentBounds(rows[1..]);
      DatesOfCons(rows);
      assert forall i :: 1 <= i < |rows| ==> rows[i] == rows[1..][i - 1];
    }
  }

  /** `refresh_start = max(start_date, end_date - timedelta(days=1))`
      (weekly_prices.py:254). */
  function RefreshStart(req: Window): (d: Date)
    ensures req.lo <= d && req.hi - 1 <= d
    ensures d == req.lo || d == req.hi - 1
  {
    if req.lo > req.hi - 1 then req.lo else req.hi - 1
  }

  /** The always-on window (weekly_prices.py:271-272, 278-281): the whole
      request when forced, else its last day or two. */
  function FirstWindow(req: Window, policy: Policy): seq<Window> {
    if policy == ForceRefresh then AddRange([], req.lo, req.hi)
    else AddRange([], RefreshStart(req), req.hi)
  }

  /** The fetch windows of weekly_prices.py:271-290. Unless the policy is
      stale-only: the whole window when forced, else the always-on window
      of the last day or two; then the whole window again when nothing is
      cached, else a left gap before the cached extent and a right gap
      after it. Forcing replaces only the always-on window: the gap checks
      still run, so a forced plan can name overlapping windows. */
  function Plan(req: Window, extent: Option<Window>, policy: Policy): (plan: seq<Window>)
    ensures WellFormed(plan)
    ensures |plan| <= 3
    ensures policy == StaleOnly ==> plan == []
    ensures policy == Live && req.lo <= req.hi ==> |plan| > 0 && plan[0] == Window(RefreshStart(req), req.hi)
    ensures policy == ForceRefresh && req.lo <= req.hi ==> |plan| > 0 && plan[0] == req
    ensures policy != StaleOnly && extent.None? && req.lo <= req.hi ==> req in plan
  {
    if policy == StaleOnly then []
    else
      var p0 := FirstWindow(req, policy);
      match extent
      case None => AddRange(p0, req.lo, req.hi)
      case Some(e) =>
        var p1 := if e.lo > req.lo then AddRange(p0, req.lo, e.lo - 1) else p0;
        if e.hi < req.hi then AddRange(p1, e.hi + 1, req.hi) else p1
  }

  /** Unless stale-only, every day of the request is either inside the
      cached extent or inside a planned window: no gap is left unfetched. */
  lemma PlanCovers(req: Window, extent: Option<Window>, policy: Policy)
    requires policy != StaleOnly
    ensures forall d :: req.lo <= d <= req.hi ==> InExtent(extent, d) || Covered(Plan(req, extent, policy), d)
  {
    var p0 := FirstWindow(req, policy);
    match extent
    case None =>
      AddRangeCovers(p0, req.lo, req.hi);
    case Some(e) =>
      var p1 := if e.lo > req.lo then AddRange(p0, req.lo, e.lo - 1) else p0;
      AddRangeCovers(p0, req.lo, e.lo - 1);
      AddRangeCovers(p1, e.hi + 1, req.hi);
  }

  /** With the cached extent inside the request, no planned window reaches
      outside it. */
  lemma PlanWithin(req: Window, extent: Option<Window>, policy: Policy)
    requires extent.Some? ==> req.lo <= extent.value.lo <= extent.value.hi <= req.hi
    ensures Within(Plan(req, extent, policy), req)
  {
    if policy != StaleOnly {
      var p0 := FirstWindow(req, policy);
      AddRangeCovers([], req.lo, req.hi);
      AddRangeCovers([], RefreshStart(req), req.hi);
      match extent
      case None =>
        AddRangeCovers(p0, req.lo, req.hi);
      case Some(e) =>
        var p1 := if e.lo > req.lo then AddRange(p0, req.lo, e.lo - 1) else p0;
        AddRangeCovers(p0, req.lo, e.lo - 1);
        AddRangeCovers(p1, e.hi + 1, req.hi);
    }
  }

  /** A live request whose window the cache already spans refetches only
      the always-on window of the last day or two. */
  lemma PlanMinimalRefetch(req: Window, e: Window)
    requires req.lo <= req.hi && e.lo <= req.lo && req.hi <= e.hi
    ensures Plan(req, Some(e), Live) == [Window(RefreshStart(req), req.hi)]
  {
  }

  /** With something cached, the windows after the first are exactly the
      non-empty left and right gaps around the cached extent. */
  lemma PlanGaps(req: Window, e: Window, policy: Policy)
    requires policy != StaleOnly && req.lo <= req.hi
    ensures var plan := Plan(req, Some(e), policy);
      && (e.lo > req.lo <==> Window(req.lo, e.lo - 1) in plan[1..])
      && (e.hi < req.hi <==> Window(e.hi + 1, req.hi) in plan[1..])
      && forall w :: w in plan[1..] ==> w == Window(req.lo, e.lo - 1) || w == Window(e.hi + 1, req.hi)
  {
    var tail := Plan(req, Some(e), policy)[1..];
    var left, right := Window(req.lo, e.lo - 1), Window(e.hi + 1, req.hi);
    assert tail == Gap(left.lo, left.hi) + Gap(right.lo, right.hi) by {
      PlanTail(req, e, policy);
    }
    assert left.lo <= left.hi && right.lo <= right.hi ==> tail == [left, right];
    assert e.lo <= req.lo && e.hi < req.hi ==> tail == [right] && left != right;
    assert req.lo < e.lo && req.hi <= e.hi ==> tail == [left] && left != right;
  }

  /** With something cached, the plan is the first window followed by the
      non-empty left gap and then the non-empty right gap. */
  lemma PlanTail(req: Window, e: Window, policy: Policy)
    requires policy != StaleOnly && req.lo <= req.hi
    ensures |Plan(req, Some(e), policy)| >= 1
    ensures Plan(req, Some(e), policy)[1..]
      == (if e.lo > req.lo then [Window(req.lo, e.lo - 1)] else [])
       + (if e.hi < req.hi then [Window(e.hi + 1, req.hi)] else [])
  {
    var p0 := FirstWindow(req, policy);
    var left, right := Gap(req.lo, e.lo - 1), Gap(e.hi + 1, req.hi);
    assert |p0| == 1;
    assert Plan(req, Some(e), policy) == p0 + left + right;
    assert (p0 + left + right)[1..] == left + right;
  }
}

=== FILE: handler.dfy ===
/** The request normalisation of the `/api/prices` handler
    (weekly_prices.py:1419-1522): which assets, which rows, which policy. */
module Handler {
  import opened Wrappers
  import opened Lexical
  import opened IsoDate
  import opened Resolve
  import opened PriceStore
  import opened Assembler

  /** The fixed asset registry `ASSETS` (weekly_prices.py:22-33): display
      name and provider ticker, in declaration order. */
  const Registry: seq<(string, Ticker)> := [
    ("아이렌", "IREN"),
    ("로켓랩", "RKLB"),
    ("비트코인", "BTC-USD"),
    ("이더리움", "ETH-USD"),
    ("원달러환율", "KRW=X"),
    ("금", "GC=F"),
    ("은", "SI=F"),
    ("구리", "HG=F"),
    ("나스닥100", "^IXIC"),
    ("S&P500", "^GSPC")
  ]

  /** How many leading characters of `s` are whitespace. */
  function LeadingSpace(s: string): (n: nat)
    ensures n <= |s|
    ensures forall k :: 0 <= k < n ==> IsSpace(s[k])
    ensures n < |s| ==> !IsSpace(s[n])
  {
    if |s| > 0 && IsSpace(s[0]) then 1 + LeadingSpace(s[1..]) else 0
  }

  /** Where the trailing whitespace of `s` starts, looking no further left
      than `lo`. */
  function TrailingSpace(s: string, lo: nat): (m: nat)
    requires lo <= |s|
    ensures lo <= m <= |s|
    ensures forall k :: m <= k < |s| ==> IsSpace(s[k])
    ensures m > lo ==> !IsSpace(s[m - 1])
    decreases |s|
  {
    if |s| > lo && IsSpace(s[|s| - 1]) then TrailingSpace(s[..|s| - 1], lo) else |s|
  }

  /** Everything of `s` before `i` and from `j` on is whitespace. */
  predicate SpaceOutside(s: string, i: int, j: int) {
    && 0 <= i <= j <= |s|
    && (forall k :: 0 <= k < i ==> IsSpace(s[k]))
    && (forall k :: j <= k < |s| ==> IsSpace(s[k]))
  }

  /** Python's `str.strip()`: the longest infix of `s` that neither starts
      nor ends with whitespace, found by dropping whitespace only. */
  function Strip(s: string): (r: string)
    ensures |r| == 0 || (!IsSpace(r[0]) && !IsSpace(r[|r| - 1]))
    ensures exists i, j :: SpaceOutside(s, i, j) && r == s[i..j]
  {
    var i := LeadingSpace(s);
    var j := TrailingSpace(s, i);
    assert SpaceOutside(s, i, j);
    s[i..j]
  }

  /** Text that neither starts nor ends with whitespace strips to itself. */
  lemma StripTrimmed(s: string)
    requires |s| == 0 || (!IsSpace(s[0]) && !IsSpace(s[|s| - 1]))
    ensures Strip(s) == s
  {
    assert LeadingSpace(s) == 0;
    assert TrailingSpace(s, 0) == |s|;
  }

  /** Stripping twice is stripping once. */
  lemma StripIdempotent(s: string)
    ensures Strip(Strip(s)) == Strip(s)
  {
    StripTrimmed(Strip(s));
  }

  /** Python's `s.split(sep)`: the pieces between separators, empty ones
      included. */
  function SplitOn(s: string, sep: char): (parts: seq<string>)
    ensures |parts| >= 1
    ensures forall i :: 0 <= i < |parts| ==> sep !in parts[i]
  {
    if |s| == 0 then [""]
    else
      var rest := SplitOn(s[1..], sep);
      if s[0] == sep then [""] + rest
      else [[s[0]] + rest[0]] + rest[1..]
  }

  /** `sep.join(parts)`. */
  function Join(parts: seq<string>, sep: char): string
    requires |parts| >= 1
  {
    if |parts| == 1 then parts[0] else parts[0] + [sep] + Join(parts[1..], sep)
  }

  /** Joining the pieces of a split gives back the input. */
  lemma {:induction false} JoinSplit(s: string, sep: char)
    ensures Join(SplitOn(s, sep), sep) == s
  {
    if |s| > 0 {
      JoinSplit(s[1..], sep);
      var rest := SplitOn(s[1..], sep);
      if s[0] != sep {
        var parts := SplitOn(s, sep);
        if |rest| == 1 {
          assert parts == [[s[0]] + rest[0]];
        } else {
          assert parts[1..] == rest[1..];
          assert Join(parts, sep) == [s[0]] + rest[0] + [sep] + Join(rest[1..], sep);
        }
      }
    }
  }

  /** Splitting a join of separator-free pieces gives back the pieces. */
  lemma {:induction false} SplitJoin(parts: seq<string>, sep: char)
    requires |parts| >= 1 && forall i :: 0 <= i < |parts| ==> sep !in parts[i]
    ensures SplitOn(Join(parts, sep), sep) == parts
    decreases |parts|, |parts[0]|
  {
    var p := parts[0];
    if |p| > 0 {
      var shorter := [p[1..]] + parts[1..];
      assert sep !in p[1..] by {
        assert forall c :: c in p[1..] ==> c in p;
      }
      SplitJoin(shorter, sep);
      JoinHead(parts, sep);
      var j := Join(parts, sep);
      assert j[0] == p[0] && j[1..] == Join(shorter, sep);
      assert p[0] != sep;
      assert SplitOn(j, sep) == [[p[0]] + p[1..]] + parts[1..];
      assert p == [p[0]] + p[1..];
    } else if |parts| > 1 {
      SplitJoin(parts[1..], sep);
      assert Join(parts, sep) == [sep] + Join(parts[1..], sep);
    }
  }

  /** Joining pieces whose first is non-empty starts with that piece's
      first character, followed by the join with it removed. */
  lemma JoinHead(parts: seq<string>, sep: char)
    requires |parts| >= 1 && |parts[0]| > 0
    ensures Join(parts, sep) == [parts[0][0]] + Join([parts[0][1..]] + parts[1..], sep)
  {
    var p := parts[0];
    var shorter := [p[1..]] + parts[1..];
    if |parts| > 1 {
      assert shorter[1..] == parts[1..];
    }
  }

  /** The tickers named by the `assets` query parameter: comma-separated,
      each stripped, empty items dropped (weekly_prices.py:1441). */
  function RequestedTickers(filter: string): set<Ticker> {
    set p | p in SplitOn(filter, ',') && Strip(p) != "" :: Strip(p)
  }

  /** The asset map of weekly_prices.py:1440-1444: with a non-empty
      `assets` parameter, the registry entries whose ticker was requested,
      in registry order; otherwise the whole registry. */
  function FilterAssets(registry: seq<(string, Ticker)>, filter: Option<string>)
    : (r: seq<(string, Ticker)>)
    ensures !Given(filter) ==> r == registry
    ensures IsSubsequence(r, registry)
    ensures Given(filter) ==> forall i :: 0 <= i < |r| ==> r[i].1 in RequestedTickers(filter.value)
    ensures Given(filter) ==> forall a :: a in registry && a.1 in RequestedTickers(filter.value) ==> a in r
  {
    if !Given(filter) then
      SubsequenceOfSelf(registry);
      registry
    else KeepRequested(registry, RequestedTickers(filter.value))
  }

  lemma {:induction false} SubsequenceOfSelf<T>(xs: seq<T>)
    ensures IsSubsequence(xs, xs)
  {
    if |xs| > 0 {
      SubsequenceOfSelf(xs[1..]);
    }
  }

  /** Every element of a subsequence is an element of the whole. */
  lemma {:induction false} SubsequenceMembers<T>(xs: seq<T>, ys: seq<T>)
    requires IsSubsequence(xs, ys)
    ensures forall x :: x in xs ==> x in ys
    decreases |ys|
  {
    if |xs| > 0 {
      if IsSubsequence(xs, ys[1..]) {
        SubsequenceMembers(xs, ys[1..]);
      } else {
        SubsequenceMembers(xs[1..], ys[1..]);
        assert forall x :: x in xs ==> x == xs[0] || x in xs[1..];
      }
    }
  }

  /** Leaving assets out keeps the display names distinct. */
  lemma {:induction false} SubsequenceDistinct(xs: seq<(string, Ticker)>, ys: seq<(string, Ticker)>)
    requires IsSubsequence(xs, ys) && DistinctNames(ys)
    ensures DistinctNames(xs)
    decreases |ys|
  {
    if |xs| > 0 {
      var tail := ys[1..];
      assert DistinctNames(tail) by {
        assert forall i :: 0 <= i < |tail| ==> tail[i] == ys[i + 1];
      }
      if IsSubsequence(xs, tail) {
        SubsequenceDistinct(xs, tail);
      } else {
        SubsequenceDistinct(xs[1..], tail);
        SubsequenceMembers(xs[1..], tail);
        forall i, j | 0 <= i < j < |xs|
          ensures xs[i].0 != xs[j].0
        {
          assert xs[j] == xs[1..][j - 1];
          if i == 0 {
            assert xs[1..][j - 1] in xs[1..];
            var k :| 0 <= k < |tail| && tail[k] == xs[j];
            assert ys[k + 1] == xs[j];
          } else {
            assert xs[i] == xs[1..][i - 1];
          }
        }
      }
    }
  }

  lemma RegistryDistinct()
    ensures DistinctNames(Registry)
  {
  }

  function KeepRequested(assets: seq<(string, Ticker)>, wanted: set<Ticker>): (r: seq<(string, Ticker)>)
    ensures IsSubsequence(r, assets)
    ensures forall i :: 0 <= i < |r| ==> r[i].1 in wanted
    ensures forall a :: a in assets && a.1 in wanted ==> a in r
  {
    if |assets| == 0 then []
    else
      var rest := KeepRequested(assets[1..], wanted);
      assert forall a :: a in assets ==> a == assets[0] || a in assets[1..];
      if assets[0].1 in wanted then
        var r := [assets[0]] + rest;
        assert r[1..] == rest;
        r
      else rest
  }

  /** Digits with single underscores between them, as Python's `int()`
      accepts after the sign: `1_000` but not `_1`, `1_` or `1__0`. */
  predicate DigitGroups(s: string) {
    && |s| > 0 && IsDigit(s[0]) && IsDigit(s[|s| - 1])
    && (forall k :: 0 <= k < |s| ==> IsDigit(s[k]) || s[k] == '_')
    && (forall k :: 0 <= k < |s| - 1 ==> !(s[k] == '_' && s[k + 1] == '_'))
  }

  function DropUnderscores(s: string): (r: string)
    ensures (forall k :: 0 <= k < |s| ==> IsDigit(s[k]) || s[k] == '_') ==> AllDigits(r)
    ensures AllDigits(s) ==> r == s
  {
    if |s| == 0 then ""
    else (if s[0] == '_' then "" else [s[0]]) + DropUnderscores(s[1..])
  }

  /** Python's `int(text)` in base 10: surrounding whitespace, an optional
      sign, then digit groups; anything else raises ValueError (None). */
  function ParseInt(text: string): (r: Option<int>)
    ensures (forall k :: 0 <= k < |text| ==> IsSpace(text[k])) ==> r.None?
    ensures r.Some? ==> |Strip(text)| > 0 && (r.value < 0 ==> Strip(text)[0] == '-')
  {
    var t := Strip(text);
    if |t| == 0 then None else ParseSigned(t)
  }

  /** `int()` on stripped, non-empty text: an optional sign, then digit
      groups. */
  function ParseSigned(t: string): (r: Option<int>)
    requires |t| > 0
    ensures r.Some? && r.value < 0 ==> t[0] == '-'
  {
    var body := if t[0] == '-' || t[0] == '+' then t[1..] else t;
    match GroupsValue(body)
    case None => None
    case Some(v) => Some(if t[0] == '-' then 0 - v else v)
  }

  /** The value of a run of digit groups, underscores ignored. */
  function GroupsValue(body: string): Option<nat> {
    if DigitGroups(body) then Some(Value(DropUnderscores(body))) else None
  }

  /** The shortest decimal spelling of `n`, as `str(n)` writes it. */
  function DecimalText(n: nat): (s: string)
    ensures |s| > 0 && AllDigits(s) && Value(s) == n
    ensures IsDigit(s[0])
  {
    if n < 10 then
      assert [DigitChar(n)][..0] == [];
      [DigitChar(n)]
    else
      var s := DecimalText(n / 10) + [DigitChar(n % 10)];
      assert s[..|s| - 1] == DecimalText(n / 10);
      s
  }

  function ShowInt(n: int): string {
    if n < 0 then "-" + DecimalText(-n) else DecimalText(n)
  }

  lemma DigitsAreGroups(digits: string)
    requires |digits| > 0 && AllDigits(digits)
    ensures GroupsValue(digits) == Some(Value(digits))
  {
    assert DigitGroups(digits);
  }

  /** A digit run is read as its value. */
  lemma ParseDigits(digits: string)
    requires |digits| > 0 && AllDigits(digits)
    ensures ParseInt(digits) == Some(Value(digits) as int)
  {
    StripTrimmed(digits);
    ParseTrimmed(digits);
    DigitsAreSigned(digits);
  }

  /** Text that strips to itself is read by its sign and digits alone. */
  lemma ParseTrimmed(t: string)
    requires |t| > 0 && Strip(t) == t
    ensures ParseInt(t) == ParseSigned(t)
  {
  }

  lemma DigitsAreSigned(digits: string)
    requires |digits| > 0 && AllDigits(digits)
    ensures ParseSigned(digits) == Some(Value(digits) as int)
  {
    assert digits[0] != '-' && digits[0] != '+';
    DigitsAreGroups(digits);
  }

  /** A digit run after a minus sign is read as the negated value. */
  lemma ParseNegatedDigits(digits: string)
    requires |digits| > 0 && AllDigits(digits)
    ensures ParseInt("-" + digits) == Some(0 - Value(digits))
  {
    NegatedIsTrimmed(digits);
    ParseTrimmed("-" + digits);
    NegatedIsSigned(digits);
  }

  lemma NegatedIsTrimmed(digits: string)
    requires |digits| > 0 && AllDigits(digits)
    ensures Strip("-" + digits) == "-" + digits
  {
    var s := "-" + digits;
    assert s[|s| - 1] == digits[|digits| - 1];
    StripTrimmed(s);
  }

  lemma NegatedIsSigned(digits: string)
    requires |digits| > 0 && AllDigits(digits)
    ensures ParseSigned("-" + digits) == Some(0 - Value(digits))
  {
    var s := "-" + digits;
    assert s[0] == '-' && s[1..] == digits;
    DigitsAreGroups(digits);
  }

  /** `int(str(n)) == n`. */
  lemma ParseShowInt(n: int)
    ensures ParseInt(ShowInt(n)) == Some(n)
  {
    if n < 0 {
      ParseNegatedDigits(DecimalText(-n));
    } else {
      ParseDigits(DecimalText(n));
    }
  }

  /** The stripped text is the one infix that has only whitespace around it
      and neither starts nor ends with whitespace. */
  lemma StripUnique(s: string, i: int, j: int)
    requires SpaceOutside(s, i, j)
    requires i == j || (!IsSpace(s[i]) && !IsSpace(s[j - 1]))
    ensures Strip(s) == s[i..j]
  {
    var a := LeadingSpace(s);
    var m := TrailingSpace(s, a);
    if i == j {
      assert forall k :: 0 <= k < |s| ==> IsSpace(s[k]);
      assert a == |s|;
    } else {
      assert a == i;
      assert m == j;
    }
  }

  /** Whitespace around a text does not change what `int()` reads. */
  lemma ParseIntPadded(pre: string, text: string, post: string)
    requires forall k :: 0 <= k < |pre| ==> IsSpace(pre[k])
    requires forall k :: 0 <= k < |post| ==> IsSpace(post[k])
    ensures ParseInt(pre + text + post) == ParseInt(text)
  {
    var a := LeadingSpace(text);
    var b := TrailingSpace(text, a);
    assert Strip(text) == text[a..b];
    PaddedInfix(pre, text, post, a, b);
  }

  /** The trimmed infix of a text is also the stripped infix of the text
      with whitespace around it. */
  lemma PaddedInfix(pre: string, text: string, post: string, a: int, b: int)
    requires forall k :: 0 <= k < |pre| ==> IsSpace(pre[k])
    requires forall k :: 0 <= k < |post| ==> IsSpace(post[k])
    requires SpaceOutside(text, a, b) && (a == b || (!IsSpace(text[a]) && !IsSpace(text[b - 1])))
    ensures Strip(pre + text + post) == text[a..b]
  {
    var s := pre + text + post;
    PaddedSpace(pre, text, post, a, b);
    if a < b {
      assert s[|pre| + a] == text[a] && s[|pre| + b - 1] == text[b - 1];
    }
    StripUnique(s, |pre| + a, |pre| + b);
  }

  /** Whitespace outside an infix stays outside it when more whitespace is
      put around the text. */
  lemma PaddedSpace(pre: string, text: string, post: string, a: int, b: int)
    requires forall k :: 0 <= k < |pre| ==> IsSpace(pre[k])
    requires forall k :: 0 <= k < |post| ==> IsSpace(post[k])
    requires SpaceOutside(text, a, b)
    ensures SpaceOutside(pre + text + post, |pre| + a, |pre| + b)
    ensures (pre + text + post)[|pre| + a..|pre| + b] == text[a..b]
  {
    var s := pre + text + post;
    assert forall k :: 0 <= k < |text| ==> s[|pre| + k] == text[k];
    assert forall k :: 0 <= k < |pre| ==> s[k] == pre[k];
    assert forall k :: 0 <= k < |post| ==> s[|pre| + |text| + k] == post[k];
  }

  /** Digit groups with no sign are read by their digits. */
  lemma ParseBareGroups(body: string)
    requires DigitGroups(body)
    ensures ParseInt(body) == Some(Value(DropUnderscores(body)) as int)
  {
    StripTrimmed(body);
    ParseTrimmed(body);
    assert body[0] != '-' && body[0] != '+';
  }

  /** Digit groups after a sign are read by the sign and their digits. */
  lemma ParseSignedGroups(sign: char, body: string)
    requires sign == '+' || sign == '-'
    requires DigitGroups(body)
    ensures ParseInt([sign] + body) == Some(if sign == '-' then 0 - Value(DropUnderscores(body)) else Value(DropUnderscores(body)))
  {
    var t := [sign] + body;
    assert t[|t| - 1] == body[|body| - 1];
    StripTrimmed(t);
    ParseTrimmed(t);
    assert t[1..] == body;
  }

  /** `text` is spelled as `int()` accepts it: whitespace `pre`, a sign
      of at most one `+` or `-`, digit groups `body`, whitespace `post`;
      and `v` is the number that spelling denotes. */
  predicate IntSpelling(text: string, pre: string, sign: string, body: string, post: string, v: int) {
    && text == pre + sign + body + post
    && (forall k :: 0 <= k < |pre| ==> IsSpace(pre[k]))
    && (forall k :: 0 <= k < |post| ==> IsSpace(post[k]))
    && |sign| <= 1 && (forall k :: 0 <= k < |sign| ==> sign[k] == '+' || sign[k] == '-')
    && DigitGroups(body)
    && v == (if |sign| == 1 && sign[0] == '-' then 0 - Value(DropUnderscores(body)) else Value(DropUnderscores(body)))
  }

  /** Every spelling of that shape is read as the number it denotes. */
  lemma ParseIntAcceptsSpellings(text: string, pre: string, sign: string, body: string, post: string, v: int)
    requires IntSpelling(text, pre, sign, body, post, v)
    ensures ParseInt(text) == Some(v)
  {
    SpellingPadded(text, pre, sign, body, post, v);
    SignedSpelling(sign, body, v);
  }

  /** The whitespace around a spelling is ignored. */
  lemma SpellingPadded(text: string, pre: string, sign: string, body: string, post: string, v: int)
    requires IntSpelling(text, pre, sign, body, post, v)
    ensures ParseInt(text) == ParseInt(sign + body)
  {
    var u := sign + body;
    assert text == pre + u + post;
    ParseIntPadded(pre, u, post);
  }

  lemma SignedSpelling(sign: string, body: string, v: int)
    requires |sign| <= 1 && (forall k :: 0 <= k < |sign| ==> sign[k] == '+' || sign[k] == '-')
    requires DigitGroups(body)
    requires v == (if |sign| == 1 && sign[0] == '-' then 0 - Value(DropUnderscores(body)) else Value(DropUnderscores(body)))
    ensures ParseInt(sign + body) == Some(v)
  {
    if |sign| == 0 {
      assert sign + body == body;
      ParseBareGroups(body);
    } else {
      assert sign + body == [sign[0]] + body;
      ParseSignedGroups(sign[0], body);
    }
  }

  /** `int()` reads nothing else: whatever it accepts has that shape, and
      its value is the number the shape denotes. */
  lemma ParseIntOnlySpellings(text: string)
    ensures ParseInt(text).Some? ==>
      exists pre, sign, body, post :: IntSpelling(text, pre, sign, body, post, ParseInt(text).value)
  {
    if ParseInt(text).Some? {
      var a, b := StripBounds(text);
      var sign, body := InfixSpelling(text, a, b, ParseInt(text).value);
    }
  }

  /** A signed infix with only whitespace around it spells its value. */
  lemma InfixSpelling(text: string, a: int, b: int, v: int) returns (sign: string, body: string)
    requires SpaceOutside(text, a, b) && a < b
    requires ParseSigned(text[a..b]) == Some(v)
    ensures IntSpelling(text, text[..a], sign, body, text[b..], v)
  {
    sign, body := SignedSplit(text[a..b]);
    SpaceAround(text, a, b, sign, body);
  }

  /** Where the text `int()` accepted was stripped to. */
  lemma StripBounds(text: string) returns (a: int, b: int)
    requires ParseInt(text).Some?
    ensures SpaceOutside(text, a, b) && a < b
    ensures ParseSigned(text[a..b]) == ParseInt(text)
  {
    a := LeadingSpace(text);
    b := TrailingSpace(text, a);
    assert Strip(text) == text[a..b];
  }

  /** What `int()` accepts after stripping is a sign of at most one
      character and digit groups, read with that sign. */
  lemma SignedSplit(t: string) returns (sign: string, body: string)
    requires |t| > 0 && ParseSigned(t).Some?
    ensures t == sign + body
    ensures |sign| <= 1 && (forall k :: 0 <= k < |sign| ==> sign[k] == '+' || sign[k] == '-')
    ensures DigitGroups(body)
    ensures ParseSigned(t).value == (if |sign| == 1 && sign[0] == '-' then 0 - Value(DropUnderscores(body)) else Value(DropUnderscores(body)))
  {
    if t[0] == '-' || t[0] == '+' {
      sign, body := t[..1], t[1..];
    } else {
      sign, body := t[..0], t;
    }
    assert GroupsValue(body).Some?;
  }

  /** A text is the whitespace outside an infix around that infix. */
  lemma SpaceAround(text: string, a: int, b: int, sign: string, body: string)
    requires SpaceOutside(text, a, b) && text[a..b] == sign + body
    ensures text == text[..a] + sign + body + text[b..]
    ensures forall k :: 0 <= k < |text[..a]| ==> IsSpace(text[..a][k])
    ensures forall k :: 0 <= k < |text[b..]| ==> IsSpace(text[b..][k])
  {
    assert text == text[..a] + text[a..b] + text[b..];
  }

  /** `int("+n") == int("n")`. */
  lemma ParsePlusSign(body: string)
    requires DigitGroups(body)
    ensures ParseInt("+" + body) == ParseInt(body)
  {
    ParseBareGroups(body);
    ParseSignedGroups('+', body);
  }

  /** `int("0n") == int("n")`: leading zeros are accepted and ignored. */
  lemma ParseLeadingZero(body: string)
    requires DigitGroups(body)
    ensures ParseInt("0" + body) == ParseInt(body)
  {
    var z := "0" + body;
    assert forall k :: 0 < k < |z| ==> z[k] == body[k - 1];
    assert DigitGroups(z);
    ParseBareGroups(body);
    ParseBareGroups(z);
    assert z[1..] == body;
    ValueLeadingZero(DropUnderscores(body));
  }

  /** `int("1_000") == int("1000")`: a single underscore between digit
      groups is ignored. */
  lemma ParseUnderscore(left: string, right: string)
    requires DigitGroups(left) && DigitGroups(right)
    ensures ParseInt(left + "_" + right) == ParseInt(left + right)
  {
    JoinedGroups(left, right);
    ParseBareGroups(left + "_" + right);
    ParseBareGroups(left + right);
    DropJoined(left, right);
  }

  /** Dropping the underscores of two texts joined by one underscore gives
      the texts joined directly, underscores dropped. */
  lemma DropJoined(left: string, right: string)
    ensures DropUnderscores(left + "_" + right) == DropUnderscores(left + right)
  {
    DropUnderscoresAppend(left + "_", right);
    DropUnderscoresAppend(left, "_");
    DropUnderscoresAppend(left, right);
    assert "_"[1..] == "";
    assert DropUnderscores("_") == "";
    assert DropUnderscores(left) + "" == DropUnderscores(left);
  }

  /** Two digit groups joined directly or by one underscore are digit
      groups again. */
  lemma JoinedGroups(left: string, right: string)
    requires DigitGroups(left) && DigitGroups(right)
    ensures DigitGroups(left + "_" + right) && DigitGroups(left + right)
  {
    var u, v := left + "_" + right, left + right;
    assert forall k :: 0 <= k < |left| ==> u[k] == left[k] && v[k] == left[k];
    assert forall k :: 0 <= k < |right| ==> u[|left| + 1 + k] == right[k] && v[|left| + k] == right[k];
  }

  lemma {:induction false} DropUnderscoresAppend(x: string, y: string)
    ensures DropUnderscores(x + y) == DropUnderscores(x) + DropUnderscores(y)
  {
    if |x| > 0 {
      assert (x + y)[1..] == x[1..] + y;
      DropUnderscoresAppend(x[1..], y);
    } else {
      assert x + y == y;
    }
  }

  /** The `trading_days` parameter (weekly_prices.py:1449-1454): a
      non-empty value that `int()` accepts is clamped to at least 1; any
      other value leaves the trading-day mode off. */
  function TradingDaysParam(p: Option<string>): (r: Option<int>)
    ensures r.Some? ==> r.value >= 1
    ensures r.Some? <==> Given(p) && ParseInt(p.value).Some?
    ensures r.Some? ==> r.value == if ParseInt(p.value).value < 1 then 1 else ParseInt(p.value).value
  {
    if !Given(p) then None
    else
      match ParseInt(p.value)
      case None => None
      case Some(v) => Some(if v < 1 then 1 else v)
  }

  /** The query parameters the handler reads. */
  datatype ApiQuery = ApiQuery(
    period: Option<string>,
    start: Option<string>,
    end: Option<string>,
    assets: Option<string>,
    refresh: Option<string>,
    tradingDays: Option<string>,
    stale: Option<string>)

  /** What the handler hands to `fetch_asset_history`. */
  datatype ApiCall = ApiCall(assets: seq<(string, Ticker)>, request: HistoryRequest, policy: Policy)

  /** weekly_prices.py:1440-1463 and 1497-1504: explicit start and end only
      when both are non-empty; a named period (default `7d`) only when
      neither they nor a trading-day count is used; stale-only when
      `stale=true`, otherwise forced when `refresh=true`. */
  function Normalize(q: ApiQuery): (c: ApiCall)
    ensures c.assets == FilterAssets(Registry, q.assets)
    ensures c.request.tradingDays == TradingDaysParam(q.tradingDays)
    ensures c.request.tradingDays.Some? ==> c.request.tradingDays.value >= 1
    ensures c.request.start.Some? <==> Given(q.start) && Given(q.end)
    ensures c.request.start.Some? ==> c.request.start == q.start && c.request.end == q.end
    ensures c.request.period.Some? <==> !(Given(q.start) && Given(q.end)) && c.request.tradingDays.None?
    ensures c.request.period.Some? ==> c.request.period.value == if Given(q.period) then q.period.value else "7d"
    ensures c.request.end.Some? <==> c.request.start.Some?
    ensures c.policy == StaleOnly <==> q.stale == Some("true")
    ensures c.policy == ForceRefresh <==> q.stale != Some("true") && q.refresh == Some("true")
  {
    var useStartEnd := Given(q.start) && Given(q.end);
    var days := TradingDaysParam(q.tradingDays);
    var period := if useStartEnd || days.Some? then None
                  else Some(if Given(q.period) then q.period.value else "7d");
    var request := HistoryRequest(
      period,
      if useStartEnd then q.start else None,
      if useStartEnd then q.end else None,
      days);
    ApiCall(FilterAssets(Registry, q.assets), request, PolicyOf(q.refresh == Some("true"), q.stale == Some("true")))
  }

  /** The handler's answer: the payload, whether it came from the cache
      only, and the store and provider calls it left behind. */
  datatype ApiResponse = ApiResponse(assets: seq<PayloadEntry>, stale: bool, store: Store, calls: seq<FetchRequest>)

  /** `api_prices` end to end (weekly_prices.py:1419-1522). A malformed
      explicit date escapes the handler (an HTTP 500); otherwise the
      payload lists the filtered assets that produced data, in registry
      order, and a stale request neither calls the provider nor writes. */
  function ApiPrices(q: ApiQuery, s: Store, provider: Provider, today: Date): (r: Result<ApiResponse, DateError>)
    ensures var c := Normalize(q);
      r.Err? <==> FetchAssetHistory(c.assets, c.request, c.policy, s, provider, today).Err?
    ensures r.Ok? ==> IsSubsequence(Labels(r.value.assets), Normalize(q).assets)
    ensures r.Ok? ==> forall e :: e in r.value.assets ==> |e.closes| > 0 && e.current == e.closes[|e.closes| - 1]
    ensures r.Ok? && q.stale == Some("true") ==> r.value.stale && r.value.calls == [] && r.value.store == s
  {
    var c := Normalize(q);
    match FetchAssetHistory(c.assets, c.request, c.policy, s, provider, today)
    case Err(e) => Err(e)
    case Ok(b) =>
      Ok(ApiResponse(BuildAssetsPayload(c.assets, b.charts), c.policy == StaleOnly, b.store, b.calls))
  }

  /** The payload mirrors the steps of a batch over `assets`: an asset is
      listed exactly when its own step succeeded, and its entry carries the
      dates and closes of that step's series. */
  predicate PayloadMirrors(payload: seq<PayloadEntry>, assets: seq<(string, Ticker)>, b: Batch, mode: Mode, policy: Policy, provider: Provider) {
    forall i :: 0 <= i < |assets| ==>
      var o := StepAt(b, assets, i, mode, policy, provider);
      && (o.series.Ok? <==> exists e :: e in payload && (e.name, e.ticker) == assets[i])
      && forall e :: e in payload && e.name == assets[i].0 ==>
           o.series.Ok? && e.dates == o.series.value.dates && e.closes == o.series.value.closes
  }

  /** What the handler returns per asset: with the registry's distinct
      names, a filtered asset is in the payload exactly when its own
      processing succeeded on the store the assets before it left, and its
      entry carries the dates and closes of that series. */
  lemma ApiPricesPayload(q: ApiQuery, s: Store, provider: Provider, today: Date)
    ensures var c := Normalize(q);
      var r := ApiPrices(q, s, provider, today);
      r.Ok? ==> PayloadMirrors(r.value.assets, c.assets, Batch(s, [], map[]), ModeOf(c.request, today).value, c.policy, provider)
  {
    var c := Normalize(q);
    var f := FetchAssetHistory(c.assets, c.request, c.policy, s, provider, today);
    if f.Ok? {
      var b, mode := Batch(s, [], map[]), ModeOf(c.request, today).value;
      assert forall i :: 0 <= i < |c.assets| ==> EntryIs(f.value.charts, c.assets[i].0, StepAt(b, c.assets, i, mode, c.policy, provider)) by {
        RegistryDistinct();
        SubsequenceDistinct(c.assets, Registry);
        FetchAssetHistoryCharts(c.assets, c.request, c.policy, s, provider, today);
      }
      PayloadMatchesAll(c.assets, f.value.charts, b, mode, c.policy, provider);
    }
  }

  /** The payload mirrors a batch whose chart entries are the outcomes of
      its steps. */
  lemma PayloadMatchesAll(assets: seq<(string, Ticker)>, charts: map<string, Series>, b: Batch, mode: Mode, policy: Policy, provider: Provider)
    requires ChartsWellShaped(charts)
    requires forall i :: 0 <= i < |assets| ==> EntryIs(charts, assets[i].0, StepAt(b, assets, i, mode, policy, provider))
    ensures PayloadMirrors(BuildAssetsPayload(assets, charts), assets, b, mode, policy, provider)
  {
    forall i | 0 <= i < |assets| {
      PayloadMatches(assets, charts, i, StepAt(b, assets, i, mode, policy, provider));
    }
  }

  /** The payload entry of an asset mirrors its chart entry. */
  lemma PayloadMatches(assets: seq<(string, Ticker)>, charts: map<string, Series>, i: int, o: AssetOutcome)
    requires 0 <= i < |assets| && ChartsWellShaped(charts) && EntryIs(charts, assets[i].0, o)
    ensures var payload := BuildAssetsPayload(assets, charts);
      && (o.series.Ok? <==> exists e :: e in payload && (e.name, e.ticker) == assets[i])
      && forall e :: e in payload && e.name == assets[i].0 ==>
           o.series.Ok? && e.dates == o.series.value.dates && e.closes == o.series.value.closes
  {
    var payload := BuildAssetsPayload(assets, charts);
    if o.series.Ok? {
      assert WellShaped(charts[assets[i].0]);
      assert Kept(assets[i], charts);
      assert exists e :: e in payload && (e.name, e.ticker) == assets[i];
    }
  }
}

=== FILE: iso_date.dfy ===
/** Calendar dates as the cache sees them. The source stores dates as
    `YYYY-MM-DD` TEXT and compares them with SQL `BETWEEN` / `ORDER BY`;
    the model uses proleptic-Gregorian day numbers (Python's
    `date.toordinal()`, 0001-01-01 is day 1) and proves below that the two
    orders agree, so a text comparison in SQL is an integer comparison here. */
module IsoDate {
  import opened Wrappers
  import opened Lexical

  /** A day number; consecutive days differ by one. */
  type Date = int

  datatype Civil = Civil(year: int, month: int, day: int)

  datatype DateError = InvalidDate(text: string)

  predicate IsLeap(y: int) {
    y % 4 == 0 && (y % 100 != 0 || y % 400 == 0)
  }

  function DaysInYear(y: int): int {
    if IsLeap(y) then 366 else 365
  }

  function DaysInMonth(y: int, m: int): int
    requires 1 <= m <= 12
  {
    if m == 2 then (if IsLeap(y) then 29 else 28)
    else if m == 4 || m == 6 || m == 9 || m == 11 then 30
    else 31
  }

  /** A date Python's `datetime.date` accepts: years 1 through 9999. */
  predicate Valid(c: Civil) {
    && 1 <= c.year <= 9999
    && 1 <= c.month <= 12
    && 1 <= c.day <= DaysInMonth(c.year, c.month)
  }

  const DaysBeforeMonthTable: seq<int> := [0, 31, 59, 90, 120, 151, 181, 212, 243, 273, 304, 334]

  function DaysBeforeMonth(y: int, m: int): int
    requires 1 <= m <= 12
  {
    DaysBeforeMonthTable[m - 1] + (if m > 2 && IsLeap(y) then 1 else 0)
  }

  function DaysBeforeYear(y: int): int
    requires y >= 1
  {
    var p := y - 1;
    p * 365 + p / 4 - p / 100 + p / 400
  }

  /** The day number of a valid calendar date. */
  function ToOrdinal(c: Civil): (d: Date)
    requires Valid(c)
    ensures d >= 1
  {
    DaysBeforeYear(c.year) + DaysBeforeMonth(c.year, c.month) + c.day
  }

  /** Lexicographic order on (year, month, day). */
  predicate CivilBefore(a: Civil, b: Civil) {
    || a.year < b.year
    || (a.year == b.year && a.month < b.month)
    || (a.year == b.year && a.month == b.month && a.day < b.day)
  }

  lemma MonthStep(y: int, m: int)
    requires 1 <= m <= 12
    ensures m < 12 ==> DaysBeforeMonth(y, m) + DaysInMonth(y, m) == DaysBeforeMonth(y, m + 1)
    ensures m == 12 ==> DaysBeforeMonth(y, m) + DaysInMonth(y, m) == DaysInYear(y)
  {
  }

  lemma {:induction false} MonthOrder(y: int, m1: int, m2: int)
    requires 1 <= m1 < m2 <= 12
    ensures DaysBeforeMonth(y, m1) + DaysInMonth(y, m1) <= DaysBeforeMonth(y, m2)
    decreases m2 - m1
  {
    MonthStep(y, m1);
    if m1 + 1 < m2 {
      MonthOrder(y, m1 + 1, m2);
      assert DaysInMonth(y, m1 + 1) > 0;
    }
  }

  lemma YearStep(y: int)
    requires y >= 1
    ensures DaysBeforeYear(y + 1) == DaysBeforeYear(y) + DaysInYear(y)
  {
    var p := y - 1;
    assert (p + 1) / 4 == p / 4 + (if y % 4 == 0 then 1 else 0);
    assert (p + 1) / 100 == p / 100 + (if y % 100 == 0 then 1 else 0);
    assert (p + 1) / 400 == p / 400 + (if y % 400 == 0 then 1 else 0);
  }

  lemma {:induction false} YearOrder(y1: int, y2: int)
    requires 1 <= y1 < y2
    ensures DaysBeforeYear(y1) + DaysInYear(y1) <= DaysBeforeYear(y2)
    decreases y2 - y1
  {
    YearStep(y1);
    if y1 + 1 < y2 {
      YearOrder(y1 + 1, y2);
    }
  }

  lemma DayOfYearBounds(c: Civil)
    requires Valid(c)
    ensures 1 <= DaysBeforeMonth(c.year, c.month) + c.day <= DaysInYear(c.year)
  {
    MonthStep(c.year, c.month);
    if c.month < 12 {
      MonthOrder(c.year, c.month, 12);
      MonthStep(c.year, 12);
    }
  }

  /** Day numbers follow calendar order in both directions; in particular
      two valid dates with the same day number are the same date. */
  lemma OrdinalOrder(a: Civil, b: Civil)
    requires Valid(a) && Valid(b)
    ensures CivilBefore(a, b) <==> ToOrdinal(a) < ToOrdinal(b)
    ensures a == b <==> ToOrdinal(a) == ToOrdinal(b)
  {
    if CivilBefore(a, b) {
      OrdinalMonotone(a, b);
    } else if CivilBefore(b, a) {
      OrdinalMonotone(b, a);
    }
  }

  lemma OrdinalMonotone(a: Civil, b: Civil)
    requires Valid(a) && Valid(b) && CivilBefore(a, b)
    ensures ToOrdinal(a) < ToOrdinal(b)
  {
    DayOfYearBounds(a);
    DayOfYearBounds(b);
    if a.year < b.year {
      YearOrder(a.year, b.year);
    } else if a.month < b.month {
      MonthOrder(a.year, a.month, b.month);
    }
  }

  /** `date.strftime("%Y-%m-%d")`: the canonical spelling stored in the
      cache table and passed to SQL. */
  function FormatDate(c: Civil): (s: string)
    requires Valid(c)
    ensures |s| == 10
  {
    Pad(c.year, 4) + "-" + Pad(c.month, 2) + "-" + Pad(c.day, 2)
  }

  /** The day field of `%d` in Python's `strptime`: the regular expression
      `3[01]|[12]\d|0[1-9]|[1-9]| [1-9]`, which must end the input. */
  function DayField(t: string): (r: Option<nat>)
    ensures r.Some? ==> 1 <= r.value <= 31
  {
    if 1 <= |t| <= 2 && AllDigits(t) && 1 <= Value(t) <= 31 then Some(Value(t))
    else if |t| == 2 && t[0] == ' ' && IsDigit(t[1]) && t[1] != '0' then Some(DigitValue(t[1]))
    else None
  }

  /** Cuts `s` at its two dashes the way the `%Y-%m-%d` pattern does:
      four characters of year, a month one or two characters wide, and the
      rest as the day. */
  function SplitFields(s: string): (r: Option<(string, string, string)>)
    ensures r.Some? ==> |r.value.0| == 4 && 1 <= |r.value.1| <= 2
    ensures r.Some? ==> s == r.value.0 + "-" + r.value.1 + "-" + r.value.2
  {
    if |s| < 8 || s[4] != '-' then None
    else
      var rest := s[5..];
      var width := if rest[1] == '-' then 1 else if rest[2] == '-' then 2 else 0;
      if width == 0 then None
      else
        assert s == s[..4] + "-" + rest[..width] + "-" + rest[width + 1..];
        Some((s[..4], rest[..width], rest[width + 1..]))
  }

  /** The field checks of `strptime` and the calendar check of
      `datetime.date` on already separated fields. */
  function CheckFields(yt: string, mt: string, dt: string): (r: Option<Civil>)
    requires |yt| == 4
    ensures r.Some? ==> Valid(r.value)
  {
    if !AllDigits(yt) || !AllDigits(mt) then None
    else
      var y, m := Value(yt), Value(mt);
      assert |yt| == 4 ==> y <= 9999 by {
        assert Pow10(4) == 10000;
      }
      match DayField(dt)
      case None => None
      case Some(d) =>
        if 1 <= y && 1 <= m <= 12 && d <= DaysInMonth(y, m) then Some(Civil(y, m, d))
        else None
  }

  /** `datetime.strptime(s, "%Y-%m-%d").date()` (weekly_prices.py:154-155):
      exactly four year digits, a month of one or two digits (`1[0-2]`,
      `0[1-9]` or `[1-9]`), a day as in `DayField`, and then the calendar
      check of `datetime.date`; anything else raises ValueError. */
  function ParseCivil(s: string): (r: Result<Civil, DateError>)
    ensures r.Ok? ==> Valid(r.value)
    ensures r.Err? ==> r.error == InvalidDate(s)
  {
    match SplitFields(s)
    case None => Err(InvalidDate(s))
    case Some((yt, mt, dt)) =>
      match CheckFields(yt, mt, dt)
      case None => Err(InvalidDate(s))
      case Some(c) => Ok(c)
  }

  /** `parse_date` as a day number. */
  function ParseDate(s: string): (r: Result<Date, DateError>)
    ensures r.Ok? <==> ParseCivil(s).Ok?
    ensures r.Ok? ==> r.value == ToOrdinal(ParseCivil(s).value)
  {
    match ParseCivil(s)
    case Ok(c) => Ok(ToOrdinal(c))
    case Err(e) => Err(e)
  }

  /** Every spelling of a month number that `%m` accepts. */
  function MonthTexts(m: nat): set<string>
    requires m < 100
  {
    {Pad(m, 2)} + (if m < 10 then {[DigitChar(m)]} else {})
  }

  /** Every spelling of a day number that `%d` accepts. */
  function DayTexts(d: nat): set<string>
    requires d < 100
  {
    {Pad(d, 2)} + (if d < 10 then {[DigitChar(d)], [' ', DigitChar(d)]} else {})
  }

  /** Every string that `strptime(…, "%Y-%m-%d")` reads as `c`. */
  function Spellings(c: Civil): set<string>
    requires Valid(c)
  {
    set mt, dt | mt in MonthTexts(c.month) && dt in DayTexts(c.day) :: Pad(c.year, 4) + "-" + mt + "-" + dt
  }

  lemma MonthFieldValue(mt: string, m: nat)
    requires 1 <= m <= 12 && mt in MonthTexts(m)
    ensures AllDigits(mt) && 1 <= |mt| <= 2 && Value(mt) == m
  {
    if mt == Pad(m, 2) {
      ValueOfPad(m, 2);
    } else {
      assert mt == [DigitChar(m)];
      assert mt[..0] == [];
    }
  }

  lemma DayFieldValue(dt: string, d: nat)
    requires 1 <= d <= 31 && dt in DayTexts(d)
    ensures DayField(dt) == Some(d)
  {
    if dt == Pad(d, 2) {
      ValueOfPad(d, 2);
    } else if dt == [DigitChar(d)] {
      assert dt[..0] == [];
    } else {
      assert dt == [' ', DigitChar(d)];
      assert !IsDigit(dt[0]);
    }
  }

  lemma SplitSpelling(yt: string, mt: string, dt: string)
    requires |yt| == 4 && 1 <= |mt| <= 2 && AllDigits(mt) && |dt| >= 1
    ensures SplitFields(yt + "-" + mt + "-" + dt) == Some((yt, mt, dt))
  {
    var s := yt + "-" + mt + "-" + dt;
    assert s[..4] == yt && s[4] == '-';
    var rest := s[5..];
    assert rest == mt + "-" + dt;
    assert rest[|mt|] == '-';
    assert |mt| == 2 ==> rest[1] != '-';
    assert rest[..|mt|] == mt;
    assert rest[|mt| + 1..] == dt;
  }

  /** Every accepted spelling of a valid date parses to that date. */
  lemma ParseAcceptsSpellings(c: Civil, s: string)
    requires Valid(c) && s in Spellings(c)
    ensures ParseCivil(s) == Ok(c)
  {
    var mt, dt :| mt in MonthTexts(c.month) && dt in DayTexts(c.day)
      && s == Pad(c.year, 4) + "-" + mt + "-" + dt;
    var yt := Pad(c.year, 4);
    MonthFieldValue(mt, c.month);
    DayFieldValue(dt, c.day);
    ValueOfPad(c.year, 4);
    SplitSpelling(yt, mt, dt);
    assert CheckFields(yt, mt, dt) == Some(c);
  }

  lemma MonthTextOfField(mt: string)
    requires AllDigits(mt) && 1 <= |mt| <= 2 && 1 <= Value(mt) <= 12
    ensures mt in MonthTexts(Value(mt))
  {
    PadOfValue(mt);
    if |mt| == 1 {
      assert Pad(Value(mt), 1) == [DigitChar(Value(mt))];
    }
  }

  lemma DayTextOfField(dt: string)
    requires DayField(dt).Some?
    ensures dt in DayTexts(DayField(dt).value)
  {
    var d := DayField(dt).value;
    if 1 <= |dt| <= 2 && AllDigits(dt) && 1 <= Value(dt) <= 31 {
      PadOfValue(dt);
      if |dt| == 1 {
        assert Pad(d, 1) == [DigitChar(d)];
      }
    } else {
      assert dt == [' ', DigitChar(d)];
    }
  }

  /** Parsing accepts nothing but the spellings of a valid date. */
  lemma ParseOnlySpellings(s: string)
    requires ParseCivil(s).Ok?
    ensures s in Spellings(ParseCivil(s).value)
  {
    var c := ParseCivil(s).value;
    var (yt, mt, dt) := SplitFields(s).value;
    assert CheckFields(yt, mt, dt) == Some(c);
    assert AllDigits(yt) && AllDigits(mt);
    assert c.year == Value(yt) && c.month == Value(mt) && DayField(dt) == Some(c.day);
    PadOfValue(yt);
    MonthTextOfField(mt);
    DayTextOfField(dt);
    assert s == Pad(c.year, 4) + "-" + mt + "-" + dt;
  }

  /** `parse_date` reads back what `strftime("%Y-%m-%d")` wrote. */
  lemma ParseFormatRoundTrip(c: Civil)
    requires Valid(c)
    ensures ParseCivil(FormatDate(c)) == Ok(c)
    ensures ParseDate(FormatDate(c)) == Ok(ToOrdinal(c))
  {
    assert Pad(c.month, 2) in MonthTexts(c.month);
    assert Pad(c.day, 2) in DayTexts(c.day);
    assert FormatDate(c) in Spellings(c);
    ParseAcceptsSpellings(c, FormatDate(c));
  }

  lemma DashHead(x: string, x': string)
    ensures TextLess("-" + x, "-" + x') <==> TextLess(x, x')
  {
    TextLessConcat("-", x, "-", x');
  }

  /** The cache's TEXT date column sorts exactly like day numbers, so SQL
      `BETWEEN` and `ORDER BY date` on it are integer comparisons. */
  lemma TextOrderIsDayOrder(a: Civil, b: Civil)
    requires Valid(a) && Valid(b)
    ensures TextLess(FormatDate(a), FormatDate(b)) <==> ToOrdinal(a) < ToOrdinal(b)
  {
    TextOrderIsCivilOrder(a, b);
    OrdinalOrder(a, b);
  }

  /** Formatted dates compare as text the way their year, month and day
      compare in turn. */
  lemma TextOrderIsCivilOrder(a: Civil, b: Civil)
    requires Valid(a) && Valid(b)
    ensures TextLess(FormatDate(a), FormatDate(b)) <==> CivilBefore(a, b)
  {
    var da, db := Pad(a.day, 2), Pad(b.day, 2);
    var restA, restB := Pad(a.month, 2) + ("-" + da), Pad(b.month, 2) + ("-" + db);
    FormatFields(a);
    FormatFields(b);
    PadFieldOrder(a.year, b.year, 4, "-" + restA, "-" + restB);
    DashHead(restA, restB);
    PadFieldOrder(a.month, b.month, 2, "-" + da, "-" + db);
    DashHead(da, db);
    PadTextOrder(a.day, b.day, 2);
  }

  lemma FormatFields(c: Civil)
    requires Valid(c)
    ensures FormatDate(c) == Pad(c.year, 4) + ("-" + (Pad(c.month, 2) + ("-" + Pad(c.day, 2))))
  {
  }

  /** A padded field followed by more text of equal length compares by
      the field's number first and by the rest on a tie. */
  lemma PadFieldOrder(x: nat, x': nat, w: nat, rest: string, rest': string)
    requires x < Pow10(w) && x' < Pow10(w) && |rest| == |rest'|
    ensures TextLess(Pad(x, w) + rest, Pad(x', w) + rest')
      <==> x < x' || (x == x' && TextLess(rest, rest'))
  {
    TextLessConcat(Pad(x, w), rest, Pad(x', w), rest');
    PadTextOrder(x, x', w);
    ValueOfPad(x, w);
    ValueOfPad(x', w);
  }
}

=== FILE: lexical.dfy ===
/** Character-level helpers shared by the date parser and the request
    handler: ASCII digits and zero-padded decimal text, Python's notion of
    whitespace, and the text order SQLite uses to compare TEXT columns. */
module Lexical {

  predicate IsDigit(c: char) {
    '0' <= c <= '9'
  }

  function DigitValue(c: char): (v: nat)
    requires IsDigit(c)
    ensures v < 10
    ensures (('0' as int) + v) as char == c
  {
    (c as int) - ('0' as int)
  }

  function DigitChar(v: nat): (c: char)
    requires v < 10
    ensures IsDigit(c) && DigitValue(c) == v
  {
    (('0' as int) + v) as char
  }

  predicate AllDigits(s: string) {
    forall i :: 0 <= i < |s| ==> IsDigit(s[i])
  }

  function Pow10(w: nat): (p: nat)
    ensures p >= 1
  {
    if w == 0 then 1 else 10 * Pow10(w - 1)
  }

  /** The number a run of decimal digits denotes (most significant first). */
  function Value(s: string): (v: nat)
    requires AllDigits(s)
    ensures v < Pow10(|s|)
  {
    if |s| == 0 then 0 else Value(s[..|s| - 1]) * 10 + DigitValue(s[|s| - 1])
  }

  /** A leading zero does not change the value of a digit run. */
  lemma {:induction false} ValueLeadingZero(s: string)
    requires AllDigits(s)
    ensures AllDigits("0" + s) && Value("0" + s) == Value(s)
  {
    var z := "0" + s;
    assert forall i :: 0 < i < |z| ==> z[i] == s[i - 1];
    if |s| > 0 {
      assert z[..|z| - 1] == "0" + s[..|s| - 1];
      ValueLeadingZero(s[..|s| - 1]);
    } else {
      assert z[..0] == "";
    }
  }

  /** `n` written in exactly `w` decimal digits, with leading zeros
      (the `%04d` / `%02d` shapes strftime produces). */
  function Pad(n: nat, w: nat): (s: string)
    requires n < Pow10(w)
    ensures |s| == w && AllDigits(s)
  {
    if w == 0 then "" else Pad(n / 10, w - 1) + [DigitChar(n % 10)]
  }

  /** Padding is undone by reading the digits back. */
  lemma {:induction false} ValueOfPad(n: nat, w: nat)
    requires n < Pow10(w)
    ensures Value(Pad(n, w)) == n
  {
    if w > 0 {
      var s := Pad(n, w);
      assert s[..|s| - 1] == Pad(n / 10, w - 1);
      ValueOfPad(n / 10, w - 1);
    }
  }

  /** Reading a digit run and padding it back to its width gives it back. */
  lemma {:induction false} PadOfValue(s: string)
    requires AllDigits(s)
    ensures Pad(Value(s), |s|) == s
  {
    if |s| > 0 {
      var init := s[..|s| - 1];
      PadOfValue(init);
      assert Value(s) / 10 == Value(init);
      assert Value(s) % 10 == DigitValue(s[|s| - 1]);
    }
  }

  /** Python's `str.isspace()`: the characters `str.strip()` and `int()` trim. */
  predicate IsSpace(c: char) {
    || ('\U{9}' <= c <= '\U{D}')
    || ('\U{1C}' <= c <= '\U{20}')
    || c == '\U{85}' || c == '\U{A0}' || c == '\U{1680}'
    || ('\U{2000}' <= c <= '\U{200A}')
    || c == '\U{2028}' || c == '\U{2029}' || c == '\U{202F}'
    || c == '\U{205F}' || c == '\U{3000}'
  }

  /** SQLite's BINARY collation on TEXT: code-point order (which is the
      byte order of the UTF-8 encoding), a proper prefix sorting first. */
  predicate TextLess(a: string, b: string) {
    if |a| == 0 then |b| > 0
    else if |b| == 0 then false
    else if a[0] != b[0] then a[0] < b[0]
    else TextLess(a[1..], b[1..])
  }

  /** Comparing two texts that start with equally long heads compares the
      heads first and the tails only on a tie. */
  lemma {:induction false} TextLessConcat(x: string, y: string, x': string, y': string)
    requires |x| == |x'|
    ensures TextLess(x + y, x' + y') <==> TextLess(x, x') || (x == x' && TextLess(y, y'))
  {
    if |x| > 0 {
      assert (x + y)[0] == x[0] && (x' + y')[0] == x'[0];
      assert (x + y)[1..] == x[1..] + y;
      assert (x' + y')[1..] == x'[1..] + y';
      TextLessConcat(x[1..], y, x'[1..], y');
      if x[0] == x'[0] {
        assert x == x' <==> x[1..] == x'[1..] by {
          if x[1..] == x'[1..] {
            assert x == [x[0]] + x[1..] && x' == [x'[0]] + x'[1..];
          }
        }
      }
    } else {
      assert x + y == y && x' + y' == y';
    }
  }

  /** Comparing two numbers is comparing their leading digits, and the
      last digits on a tie. */
  lemma DecimalSplitOrder(a: nat, b: nat)
    ensures a < b <==> a / 10 < b / 10 || (a / 10 == b / 10 && a % 10 < b % 10)
  {
    assert a == (a / 10) * 10 + a % 10;
    assert b == (b / 10) * 10 + b % 10;
  }

  lemma SingleCharOrder(c: char, c': char)
    ensures TextLess([c], [c']) <==> c < c'
  {
    assert [c][1..] == [] && [c'][1..] == [];
  }

  /** For fixed-width zero-padded numbers, text order is numeric order. */
  lemma {:induction false} PadTextOrder(a: nat, b: nat, w: nat)
    requires a < Pow10(w) && b < Pow10(w)
    ensures TextLess(Pad(a, w), Pad(b, w)) <==> a < b
  {
    if w > 0 {
      var x, x' := Pad(a / 10, w - 1), Pad(b / 10, w - 1);
      var c, c' := DigitChar(a % 10), DigitChar(b % 10);
      TextLessConcat(x, [c], x', [c']);
      PadTextOrder(a / 10, b / 10, w - 1);
      ValueOfPad(a / 10, w - 1);
      ValueOfPad(b / 10, w - 1);
      assert x == x' <==> a / 10 == b / 10;
      SingleCharOrder(c, c');
      DecimalSplitOrder(a, b);
    }
  }
}

=== FILE: price_store.dfy ===
/** The `asset_prices` table (weekly_prices.py:71-84): one close per
    `(ticker, date)` primary key, written by INSERT OR REPLACE and read by
    an inclusive range scan or a newest-N scan. */
module PriceStore {
  import opened IsoDate

  type Ticker = string

  /** One `(date, close)` row as the reads return it and the provider
      delivers it. */
  type Row = (Date, real)

  /** The table keyed by its primary key `(ticker, date)`. */
  type Store = map<(Ticker, Date), real>

  function DatesOf(rows: seq<Row>): set<Date> {
    set i | 0 <= i < |rows| :: rows[i].0
  }

  /** No later row carries the date of row `i`. */
  predicate LastForDate(rows: seq<Row>, i: int)
    requires 0 <= i < |rows|
  {
    forall j :: i < j < |rows| ==> rows[j].0 != rows[i].0
  }

  predicate StrictlyAscending(rows: seq<Row>) {
    forall i, j :: 0 <= i < j < |rows| ==> rows[i].0 < rows[j].0
  }

  predicate SortedByDate(rows: seq<Row>) {
    forall i, j :: 0 <= i < j < |rows| ==> rows[i].0 <= rows[j].0
  }

  /** Every row is the ticker's stored row for its date. */
  predicate FromStore(s: Store, t: Ticker, rows: seq<Row>) {
    forall i :: 0 <= i < |rows| ==> (t, rows[i].0) in s && s[(t, rows[i].0)] == rows[i].1
  }

  /** The dates stored for one ticker. */
  function TickerDates(s: Store, t: Ticker): set<Date> {
    set k | k in s && k.0 == t :: k.1
  }

  lemma DatesOfCons(rows: seq<Row>)
    requires |rows| > 0
    ensures DatesOf(rows) == {rows[0].0} + DatesOf(rows[1..])
  {
    forall d | d in DatesOf(rows) ensures d in {rows[0].0} + DatesOf(rows[1..]) {
      var i :| 0 <= i < |rows| && rows[i].0 == d;
      if i > 0 {
        assert rows[1..][i - 1].0 == d;
      }
    }
  }

  /** `upsert_prices` (weekly_prices.py:136-151): `executemany` of INSERT OR
      REPLACE in row order. */
  function Upsert(s: Store, t: Ticker, rows: seq<Row>): Store
    decreases |rows|
  {
    if |rows| == 0 then s else Upsert(s[(t, rows[0].0) := rows[0].1], t, rows[1..])
  }

  /** After the upsert the ticker has a row for every date in `rows`,
      carrying the close of the LAST row with that date; every other key
      keeps its value, and nothing is removed. */
  lemma {:induction false} UpsertWrites(s: Store, t: Ticker, rows: seq<Row>)
    ensures var r := Upsert(s, t, rows);
      && (forall k :: k in r <==> k in s || (k.0 == t && k.1 in DatesOf(rows)))
      && (forall k :: k in s && !(k.0 == t && k.1 in DatesOf(rows)) ==> r[k] == s[k])
      && (forall i :: 0 <= i < |rows| && LastForDate(rows, i) ==> (t, rows[i].0) in r && r[(t, rows[i].0)] == rows[i].1)
    decreases |rows|
  {
    if |rows| > 0 {
      UpsertWrites(s[(t, rows[0].0) := rows[0].1], t, rows[1..]);
      DatesOfCons(rows);
      assert forall i :: 1 <= i < |rows| && LastForDate(rows, i) ==> LastForDate(rows[1..], i - 1);
    }
  }

  lemma LastIndexExists(rows: seq<Row>, d: Date) returns (i: int)
    requires d in DatesOf(rows)
    ensures 0 <= i < |rows| && rows[i].0 == d && LastForDate(rows, i)
  {
    var k :| 0 <= k < |rows| && rows[k].0 == d;
    i := k;
    while i + 1 < |rows| && !LastForDate(rows, i)
      invariant 0 <= i < |rows| && rows[i].0 == d
      decreases |rows| - i
    {
      var j :| i < j < |rows| && rows[j].0 == d;
      i := j;
    }
  }

  /** Writing the same rows twice leaves the table as writing them once. */
  lemma {:induction false} UpsertIdempotent(s: Store, t: Ticker, rows: seq<Row>)
    ensures Upsert(Upsert(s, t, rows), t, rows) == Upsert(s, t, rows)
  {
    var once := Upsert(s, t, rows);
    var twice := Upsert(once, t, rows);
    UpsertWrites(s, t, rows);
    UpsertWrites(once, t, rows);
    assert twice.Keys == once.Keys;
    forall k | k in once ensures twice[k] == once[k] {
      if k.0 == t && k.1 in DatesOf(rows) {
        var i := LastIndexExists(rows, k.1);
      }
    }
  }

  /** `fetch_cached_prices` (weekly_prices.py:105-117): the ticker's rows
      with `lo <= date <= hi`, ascending by date. */
  function RangeScan(s: Store, t: Ticker, lo: Date, hi: Date): seq<Row>
    decreases hi - lo
  {
    if lo > hi then []
    else (if (t, lo) in s then [(lo, s[(t, lo)])] else []) + RangeScan(s, t, lo + 1, hi)
  }

  /** What a range read returns: the rows are strictly ascending by
      date, each is the stored close, all lie inside `[lo, hi]`, and
      every stored date inside the window is among them. */
  lemma RangeScanReads(s: Store, t: Ticker, lo: Date, hi: Date)
    ensures var rows := RangeScan(s, t, lo, hi);
      && StrictlyAscending(rows)
      && FromStore(s, t, rows)
      && (forall i :: 0 <= i < |rows| ==> lo <= rows[i].0 <= hi)
      && (forall d :: d in TickerDates(s, t) && lo <= d <= hi ==> d in DatesOf(rows))
  {
    RangeScanOrdered(s, t, lo, hi);
    RangeScanStored(s, t, lo, hi);
  }

  lemma {:induction false} RangeScanOrdered(s: Store, t: Ticker, lo: Date, hi: Date)
    ensures var rows := RangeScan(s, t, lo, hi);
      && StrictlyAscending(rows)
      && (forall i :: 0 <= i < |rows| ==> lo <= rows[i].0 <= hi)
    decreases hi - lo
  {
    if lo <= hi {
      RangeScanOrdered(s, t, lo + 1, hi);
      var rest := RangeScan(s, t, lo + 1, hi);
      var head := if (t, lo) in s then [(lo, s[(t, lo)])] else [];
      var r := RangeScan(s, t, lo, hi);
      assert r == head + rest;
      forall i | 0 <= i < |r|
        ensures lo <= r[i].0 <= hi
        ensures i >= |head| ==> r[i] == rest[i - |head|]
      {
        if i >= |head| {
          assert r[i] == rest[i - |head|];
        }
      }
      forall i, j | 0 <= i < j < |r|
        ensures r[i].0 < r[j].0
      {
        assert r[j] == rest[j - |head|];
        if i >= |head| {
          assert r[i] == rest[i - |head|];
        }
      }
    }
  }

  lemma {:induction false} RangeScanStored(s: Store, t: Ticker, lo: Date, hi: Date)
    ensures var rows := RangeScan(s, t, lo, hi);
      && FromStore(s, t, rows)
      && (forall d :: d in TickerDates(s, t) && lo <= d <= hi ==> d in DatesOf(rows))
    decreases hi - lo
  {
    if lo <= hi {
      RangeScanStored(s, t, lo + 1, hi);
      var rest := RangeScan(s, t, lo + 1, hi);
      var head := if (t, lo) in s then [(lo, s[(t, lo)])] else [];
      var r := RangeScan(s, t, lo, hi);
      assert r == head + rest;
      assert forall i :: 0 <= i < |rest| ==> r[|head| + i] == rest[i];
      forall d | d in TickerDates(s, t) && lo <= d <= hi
        ensures d in DatesOf(r)
      {
        assert (t, d) in s;
        if d == lo {
          assert r[0].0 == d;
        } else {
          var i :| 0 <= i < |rest| && rest[i].0 == d;
          assert r[|head| + i].0 == d;
        }
      }
    }
  }

  /** A ticker with no stored row reads back nothing. */
  lemma {:induction false} RangeScanUnknown(s: Store, t: Ticker, lo: Date, hi: Date)
    requires forall k :: k in s ==> k.0 != t
    ensures RangeScan(s, t, lo, hi) == []
    decreases hi - lo
  {
    if lo <= hi {
      RangeScanUnknown(s, t, lo + 1, hi);
    }
  }

  lemma NonEmptyHasMember(ds: set<Date>)
    requires ds != {}
    ensures exists d :: d in ds
  {
    if forall d :: d !in ds {
      assert false;
    }
  }

  lemma MaxExists(ds: set<Date>)
    requires ds != {}
    ensures exists m :: m in ds && forall d :: d in ds ==> d <= m
    decreases |ds|
  {
    NonEmptyHasMember(ds);
    var x :| x in ds;
    var others := ds - {x};
    assert forall d :: d in ds ==> d == x || d in others;
    if others != {} {
      MaxExists(others);
      var m :| m in others && forall d :: d in others ==> d <= m;
      if x > m {
        assert forall d :: d in ds ==> d <= x;
      } else {
        assert forall d :: d in ds ==> d <= m;
      }
    } else {
      assert forall d :: d in ds ==> d <= x;
    }
  }

  function MaxOf(ds: set<Date>): (m: Date)
    requires ds != {}
    ensures m in ds && forall d :: d in ds ==> d <= m
  {
    MaxExists(ds);
    var m :| m in ds && forall d :: d in ds ==> d <= m;
    m
  }

  /** `ORDER BY date DESC LIMIT limit` followed by `reversed`: the newest
      `limit` dates of `ds`, oldest first. A negative LIMIT means no limit
      in SQLite. */
  function NewestDates(ds: set<Date>, limit: int): (r: seq<Date>)
    ensures forall i, j :: 0 <= i < j < |r| ==> r[i] < r[j]
    ensures forall i :: 0 <= i < |r| ==> r[i] in ds
    ensures |r| == if limit < 0 || limit >= |ds| then |ds| else limit
    ensures forall d, i :: d in ds && 0 <= i < |r| && d !in r ==> d < r[i]
    decreases |ds|
  {
    if ds == {} || limit == 0 then []
    else
      var m := MaxOf(ds);
      var rest := NewestDates(ds - {m}, limit - 1);
      rest + [m]
  }

  /** `fetch_cached_last_n` (weekly_prices.py:120-133): the ticker's newest
      `limit` rows (all of them for a negative limit), ascending by date;
      every stored date left out is older than every date returned. */
  function LastN(s: Store, t: Ticker, limit: int): (rows: seq<Row>)
    ensures StrictlyAscending(rows)
    ensures FromStore(s, t, rows)
    ensures var n := |TickerDates(s, t)|; |rows| == if limit < 0 || limit >= n then n else limit
    ensures forall d, i :: d in TickerDates(s, t) && d !in DatesOf(rows) && 0 <= i < |rows| ==> d < rows[i].0
  {
    var ds := NewestDates(TickerDates(s, t), limit);
    assert forall d :: d in TickerDates(s, t) ==> (t, d) in s;
    var rows := seq(|ds|, i requires 0 <= i < |ds| => (ds[i], s[(t, ds[i])]));
    assert forall d :: d in DatesOf(rows) <==> d in ds by {
      forall d | d in ds ensures d in DatesOf(rows) {
        var i :| 0 <= i < |ds| && ds[i] == d;
        assert rows[i].0 == d;
      }
    }
    rows
  }

  /** Stable insertion of one row after every row with an earlier or equal
      date. */
  function InsertByDate(x: Row, rows: seq<Row>): (r: seq<Row>)
    requires SortedByDate(rows)
    ensures SortedByDate(r)
    ensures multiset(r) == multiset(rows) + multiset{x}
  {
    if |rows| == 0 then [x]
    else if x.0 < rows[0].0 then [x] + rows
    else
      var rest := InsertByDate(x, rows[1..]);
      assert rows == [rows[0]] + rows[1..];
      HeadBelowInsert(x, rows, rest);
      [rows[0]] + rest
  }

  lemma HeadBelowInsert(x: Row, rows: seq<Row>, rest: seq<Row>)
    requires SortedByDate(rows) && |rows| > 0 && rows[0].0 <= x.0
    requires multiset(rest) == multiset(rows[1..]) + multiset{x}
    ensures forall i :: 0 <= i < |rest| ==> rows[0].0 <= rest[i].0
  {
    forall i | 0 <= i < |rest| ensures rows[0].0 <= rest[i].0 {
      assert rest[i] in multiset(rest);
      if rest[i] != x {
        assert rest[i] in multiset(rows[1..]);
        var j :| 0 <= j < |rows[1..]| && rows[1..][j] == rest[i];
        assert rows[j + 1] == rest[i];
      }
    }
  }

  /** `hist.sort_index()`: the provider's rows ordered by date. */
  function SortByDate(rows: seq<Row>): (r: seq<Row>)
    ensures SortedByDate(r)
    ensures multiset(r) == multiset(rows)
  {
    if |rows| == 0 then []
    else
      assert rows == rows[..|rows| - 1] + [rows[|rows| - 1]];
      InsertByDate(rows[|rows| - 1], SortByDate(rows[..|rows| - 1]))
  }

  /** A row no older than every row of a sorted sequence goes to its end. */
  lemma {:induction false} InsertAtEnd(x: Row, rows: seq<Row>)
    requires SortedByDate(rows)
    requires forall i :: 0 <= i < |rows| ==> rows[i].0 <= x.0
    ensures InsertByDate(x, rows) == rows + [x]
  {
    if |rows| > 0 {
      InsertAtEnd(x, rows[1..]);
      assert rows == [rows[0]] + rows[1..];
    }
  }

  /** Sorting rows already in date order leaves them as they are. */
  lemma {:induction false} SortSortedKeeps(rows: seq<Row>)
    requires SortedByDate(rows)
    ensures SortByDate(rows) == rows
  {
    if |rows| > 0 {
      var init := rows[..|rows| - 1];
      SortSortedKeeps(init);
      InsertAtEnd(rows[|rows| - 1], init);
      assert rows == init + [rows[|rows| - 1]];
    }
  }

  /** Where pandas `DataFrame.tail(n)` starts in a frame of `len` rows:
      the last `n` rows, none for `n == 0`, and all but the first `-n` rows
      for a negative `n`. */
  function TailStart(len: nat, n: int): (k: nat)
    ensures k <= len
  {
    if n >= 0 then len - (if n < len then n else len)
    else if -n < len then -n else len
  }

  /** Cutting a sequence at `k`: the suffix is part of it, the prefix is
      what the suffix leaves, and a date-sorted sequence has a sorted
      suffix. */
  lemma SplitAt(xs: seq<Row>, k: nat)
    requires k <= |xs|
    ensures multiset(xs[k..]) <= multiset(xs)
    ensures multiset(xs) - multiset(xs[k..]) == multiset(xs[..k])
    ensures SortedByDate(xs) ==> SortedByDate(xs[k..])
  {
    assert xs == xs[..k] + xs[k..];
    if SortedByDate(xs) {
      forall i, j | 0 <= i < j < |xs| - k ensures xs[k..][i].0 <= xs[k..][j].0 {
        assert xs[k..][i] == xs[k + i] && xs[k..][j] == xs[k + j];
      }
    }
  }

  /** In a date-sorted sequence nothing before position `k` is newer than
      anything from `k` on. */
  lemma PrefixNotNewer(sorted: seq<Row>, k: nat)
    requires SortedByDate(sorted) && k <= |sorted|
    ensures forall x, i :: x in multiset(sorted[..k]) && 0 <= i < |sorted| - k ==> x.0 <= sorted[k..][i].0
  {
    forall x, i | x in multiset(sorted[..k]) && 0 <= i < |sorted| - k
      ensures x.0 <= sorted[k..][i].0
    {
      var j :| 0 <= j < k && sorted[j] == x;
      assert sorted[k..][i] == sorted[k + i];
    }
  }

  /** `hist.sort_index().tail(n)` (weekly_prices.py:204): for `n >= 0`, at
      most `n` of the fetched rows, and no row left behind is newer than a
      row kept. */
  function LatestRows(hist: seq<Row>, n: int): (r: seq<Row>)
    ensures SortedByDate(r)
    ensures multiset(r) <= multiset(hist)
    ensures n >= 0 ==> |r| == if n < |hist| then n else |hist|
    ensures forall x, i :: x in multiset(hist) - multiset(r) && 0 <= i < |r| ==> x.0 <= r[i].0
  {
    var sorted := SortByDate(hist);
    var k := TailStart(|sorted|, n);
    var r := sorted[k..];
    SplitAt(sorted, k);
    PrefixNotNewer(sorted, k);
    r
  }

  /** Reading the newest `n >= 1` rows of a ticker with at least `n` rows
      yields exactly `n` rows, the last of them on the newest stored date. */
  lemma LastNEndsAtNewest(s: Store, t: Ticker, n: int)
    requires n >= 1 && |TickerDates(s, t)| >= n
    ensures var rows := LastN(s, t, n);
      && |rows| == n
      && rows[n - 1].0 == MaxOf(TickerDates(s, t))
  {
    var rows := LastN(s, t, n);
    var newest := MaxOf(TickerDates(s, t));
    var last := rows[n - 1].0;
    assert (t, last) in s;
    assert last in TickerDates(s, t);
    assert last <= newest;
    if newest !in DatesOf(rows) {
      assert false;
    }
    var i :| 0 <= i < |rows| && rows[i].0 == newest;
  }
}

=== FILE: resolve.dfy ===
/** Turning a history request into a calendar window (`resolve_date_range`)
    and the two refresh flags into one policy. */
module Resolve {
  import opened Wrappers
  import opened IsoDate

  /** An inclusive range of days `[lo, hi]`. */
  datatype Window = Window(lo: Date, hi: Date)

  /** How a request treats the upstream provider. `stale_only` wins over
      `force_refresh` everywhere in `fetch_asset_history`
      (weekly_prices.py:194, 260, 278, 292), so the two flags collapse into
      three policies. */
  datatype Policy = Live | ForceRefresh | StaleOnly

  function PolicyOf(forceRefresh: bool, staleOnly: bool): (p: Policy)
    ensures p == StaleOnly <==> staleOnly
    ensures p == ForceRefresh <==> forceRefresh && !staleOnly
  {
    if staleOnly then StaleOnly else if forceRefresh then ForceRefresh else Live
  }

  /** The named periods and their lengths in days. */
  const PeriodTable: map<string, int> :=
    map["7d" := 7, "1mo" := 30, "3mo" := 90, "6mo" := 180, "1y" := 365]

  /** Python truthiness of an optional query string. */
  predicate Given(x: Option<string>) {
    x.Some? && x.value != ""
  }

  /** `period_map.get(period or "7d", 7)`. */
  function PeriodDays(period: Option<string>): int {
    var tag := if Given(period) then period.value else "7d";
    if tag in PeriodTable then PeriodTable[tag] else 7
  }

  /** `resolve_date_range` with `datetime.now().date()` passed in as
      `today`: an explicit start and end (both non-empty) are parsed and
      returned as they are, even when start is after end; otherwise the
      window is the named period ending today, seven days for a missing or
      unknown tag. A malformed explicit date raises ValueError. */
  function ResolveDateRange(period: Option<string>, start: Option<string>, end: Option<string>, today: Date)
    : (r: Result<Window, DateError>)
    ensures Given(start) && Given(end) ==>
      && (r.Ok? <==> ParseDate(start.value).Ok? && ParseDate(end.value).Ok?)
      && (r.Ok? ==> r.value == Window(ParseDate(start.value).value, ParseDate(end.value).value))
      && (r.Err? && ParseDate(start.value).Err? ==> r.error == InvalidDate(start.value))
      && (r.Err? && ParseDate(start.value).Ok? ==> r.error == InvalidDate(end.value))
    ensures !(Given(start) && Given(end)) ==>
      var days := if period.Some? && period.value in PeriodTable then PeriodTable[period.value] else 7;
      r == Ok(Window(today - days, today))
  {
    if Given(start) && Given(end) then
      match ParseDate(start.value)
      case Err(e) => Err(e)
      case Ok(lo) =>
        match ParseDate(end.value)
        case Err(e) => Err(e)
        case Ok(hi) => Ok(Window(lo, hi))
    else
      var days := PeriodDays(period);
      Ok(Window(today - days, today))
  }

  /** Explicit dates in the spelling `strftime("%Y-%m-%d")` writes resolve
      to the window between their day numbers, whatever the period and
      today. */
  lemma ResolveFormatted(period: Option<string>, a: Civil, b: Civil, today: Date)
    requires Valid(a) && Valid(b)
    ensures ResolveDateRange(period, Some(FormatDate(a)), Some(FormatDate(b)), today)
      == Ok(Window(ToOrdinal(a), ToOrdinal(b)))
  {
    ParseFormatRoundTrip(a);
    ParseFormatRoundTrip(b);
  }
}

=== FILE: scenarios.dfy ===
/** Worked examples of the reconciliation: an upstream that answers each
    history call with the rows inside the requested half-open window, and
    what one calendar request leaves in the store and in the answer. */
module Scenarios {
  import opened Wrappers
  import opened Lexical
  import opened IsoDate
  import opened Resolve
  import opened PriceStore
  import opened GapPlan
  import opened Assembler

  /** The rows of `rows` with `lo <= date < hiExclusive`, order kept. */
  function RowsBetween(rows: seq<Row>, lo: Date, hiExclusive: Date): seq<Row>
  {
    if |rows| == 0 then []
    else
      (if lo <= rows[0].0 < hiExclusive then [rows[0]] else []) + RowsBetween(rows[1..], lo, hiExclusive)
  }

  /** An upstream holding `upstream`: a history call gets the rows inside
      `[start, endExclusive)`, the trailing-month call gets all of them. */
  function WindowedProvider(upstream: seq<Row>): Provider {
    (call: FetchRequest) =>
      match call
      case History(_, lo, hiExclusive) => Ok(RowsBetween(upstream, lo, hiExclusive))
      case TrailingMonth(_) => Ok(upstream)
  }

  function ScenarioRows(d0: Date): seq<Row> {
    [(d0 + 1, 10.0), (d0 + 2, 10.5), (d0 + 4, 9.8)]
  }

  function ScenarioStore(d0: Date): Store {
    map[("X", d0 + 1) := 10.0, ("X", d0 + 2) := 10.5, ("X", d0 + 4) := 9.8]
  }

  lemma ScenarioSorted(d0: Date)
    ensures SortByDate(ScenarioRows(d0)) == ScenarioRows(d0)
  {
    SortSortedKeeps(ScenarioRows(d0));
  }

  lemma ScenarioUpsert(d0: Date)
    ensures Upsert(map[], "X", ScenarioRows(d0)) == ScenarioStore(d0)
  {
    var rows := ScenarioRows(d0);
    var m1 := map[("X", d0 + 1) := 10.0];
    var m2 := m1[("X", d0 + 2) := 10.5];
    var m3 := m2[("X", d0 + 4) := 9.8];
    assert rows[1..] == [rows[1], rows[2]];
    assert rows[1..][1..] == [rows[2]];
    assert rows[1..][1..][1..] == [];
    assert Upsert(m3, "X", []) == m3;
    assert Upsert(m2, "X", [rows[2]]) == m3;
    assert Upsert(m1, "X", [rows[1], rows[2]]) == m3;
    assert Upsert(map[], "X", rows) == m3;
  }

  lemma ScenarioRead(d0: Date)
    ensures RangeScan(ScenarioStore(d0), "X", d0, d0 + 6) == ScenarioRows(d0)
  {
    var s := ScenarioStore(d0);
    assert RangeScan(s, "X", d0 + 5, d0 + 6) == [] by {
      ScanStep(s, "X", d0 + 6, d0 + 6);
      ScanStep(s, "X", d0 + 5, d0 + 6);
    }
    assert RangeScan(s, "X", d0 + 3, d0 + 6) == [(d0 + 4, 9.8)] by {
      ScanStep(s, "X", d0 + 4, d0 + 6);
      ScanStep(s, "X", d0 + 3, d0 + 6);
    }
    assert RangeScan(s, "X", d0 + 2, d0 + 6) == [(d0 + 2, 10.5), (d0 + 4, 9.8)] by {
      ScanStep(s, "X", d0 + 2, d0 + 6);
    }
    assert RangeScan(s, "X", d0 + 1, d0 + 6) == ScenarioRows(d0) by {
      ScanStep(s, "X", d0 + 1, d0 + 6);
    }
    ScanStep(s, "X", d0, d0 + 6);
  }

  /** The range scan takes the day `lo`, if stored, before the rest. */
  lemma ScanStep(s: Store, t: Ticker, lo: Date, hi: Date)
    requires lo <= hi
    ensures RangeScan(s, t, lo, hi)
      == (if (t, lo) in s then [(lo, s[(t, lo)])] else []) + RangeScan(s, t, lo + 1, hi)
  {
  }

  lemma ScenarioPlan(d0: Date)
    ensures Plan(Window(d0, d0 + 6), Extent(RangeScan(map[], "X", d0, d0 + 6)), Live)
      == [Window(d0 + 5, d0 + 6), Window(d0, d0 + 6)]
  {
    RangeScanUnknown(map[], "X", d0, d0 + 6);
  }

  lemma ScenarioRefreshAnswer(d0: Date)
    ensures RowsBetween(ScenarioRows(d0), d0 + 5, d0 + 7) == []
  {
    var rows := ScenarioRows(d0);
    assert RowsBetween(rows[1..][1..][1..], d0 + 5, d0 + 7) == [];
    assert RowsBetween(rows[1..][1..], d0 + 5, d0 + 7) == [];
    assert RowsBetween(rows[1..], d0 + 5, d0 + 7) == [];
  }

  lemma ScenarioWindowAnswer(d0: Date)
    ensures RowsBetween(ScenarioRows(d0), d0, d0 + 7) == ScenarioRows(d0)
  {
    var rows := ScenarioRows(d0);
    assert rows[1..][1..][1..] == [];
    assert RowsBetween(rows[1..][1..][1..], d0, d0 + 7) == [];
    assert rows[1..][1..] == [rows[2]];
    assert RowsBetween(rows[1..][1..], d0, d0 + 7) == [rows[2]];
    assert rows[1..] == [rows[1], rows[2]];
    assert RowsBetween(rows[1..], d0, d0 + 7) == [rows[1], rows[2]];
  }

  lemma ScenarioMerge(d0: Date)
    ensures MergeFetched(map[], "X", ScenarioRows(d0)) == ScenarioStore(d0)
  {
    ScenarioSorted(d0);
    ScenarioUpsert(d0);
  }

  /** What the scenario's upstream answers to the two calls it gets. */
  predicate AnswersScenario(d0: Date, provider: Provider) {
    && provider(History("X", d0 + 5, d0 + 7)) == Ok([])
    && provider(History("X", d0, d0 + 7)) == Ok(ScenarioRows(d0))
  }

  /** Two windows whose calls the upstream answers, the first with no
      rows: both calls are made and only the second's rows are merged. */
  lemma FetchEmptyThenRows(s: Store, t: Ticker, w1: Window, w2: Window, provider: Provider, rows: seq<Row>)
    requires provider(WindowRequest(t, w1)) == Ok([])
    requires provider(WindowRequest(t, w2)) == Ok(rows)
    ensures FetchWindows(s, t, [w1, w2], provider)
      == Fetched(MergeFetched(s, t, rows), [WindowRequest(t, w1), WindowRequest(t, w2)], None)
  {
    var c1, c2 := WindowRequest(t, w1), WindowRequest(t, w2);
    assert CallWindows(t, [w1, w2], provider) == Replies([c1, c2], [[], rows], None) by {
      assert [w2][1..] == [] && [w1, w2][1..] == [w2];
      assert CallWindows(t, [w2], provider) == Replies([c2], [rows], None);
      assert [c1] + [c2] == [c1, c2] && [[]] + [rows] == [[], rows];
    }
    assert MergeAll(s, t, [[], rows]) == MergeFetched(s, t, rows) by {
      assert [[], rows][1..] == [rows] && [rows][1..] == [];
      assert MergeFetched(s, t, []) == s;
      assert MergeAll(s, t, [[], rows]) == MergeAll(s, t, [rows]);
      assert MergeAll(s, t, [rows]) == MergeAll(MergeFetched(s, t, rows), t, []);
    }
  }

  lemma ScenarioFetch(d0: Date, provider: Provider)
    requires AnswersScenario(d0, provider)
    ensures FetchWindows(map[], "X", [Window(d0 + 5, d0 + 6), Window(d0, d0 + 6)], provider)
      == Fetched(ScenarioStore(d0), [History("X", d0 + 5, d0 + 7), History("X", d0, d0 + 7)], None)
  {
    FetchEmptyThenRows(map[], "X", Window(d0 + 5, d0 + 6), Window(d0, d0 + 6), provider, ScenarioRows(d0));
    ScenarioMerge(d0);
  }

  /** A live or forced calendar run whose window loop ends without a
      failure answers from a read of the store the loop left. */
  lemma CalendarAnswer(s: Store, name: string, t: Ticker, req: Window, policy: Policy, provider: Provider,
                       plan: seq<Window>, f: Fetched)
    requires policy != StaleOnly
    requires Plan(req, Extent(RangeScan(s, t, req.lo, req.hi)), policy) == plan
    requires FetchWindows(s, t, plan, provider) == f && f.failure.None?
    ensures CalendarAsset(s, name, t, req, policy, provider)
      == AssetOutcome(f.store, f.calls, Summarize(name, t, RangeScan(f.store, t, req.lo, req.hi)))
  {
  }

  lemma ScenarioSummary(d0: Date)
    ensures Summarize("X", "X", ScenarioRows(d0))
      == Ok(Series("X", "X", [d0 + 1, d0 + 2, d0 + 4], [10.0, 10.5, 9.8], 9.8, Some(-2.0)))
  {
    var sum := Summarize("X", "X", ScenarioRows(d0));
    assert sum.value.dates == [d0 + 1, d0 + 2, d0 + 4];
    assert sum.value.closes == [10.0, 10.5, 9.8];
  }

  /** The end-to-end example over a seven-day window `[d0, d0 + 6]` (for
      `d0` the first of January 2024, the week 2024-01-01..2024-01-07):
      with nothing cached, a live request asks for the last two days and
      then the whole window; an upstream that has no rows for the first
      call and three rows for the second leaves exactly those three rows
      in the store, and the answer lists them ascending with `current` 9.8
      and a change of -2%. */
  lemma EndToEndScenario(d0: Date, provider: Provider)
    requires AnswersScenario(d0, provider)
    ensures var o := CalendarAsset(map[], "X", "X", Window(d0, d0 + 6), Live, provider);
      && o.calls == [History("X", d0 + 5, d0 + 7), History("X", d0, d0 + 7)]
      && o.store == ScenarioStore(d0)
      && o.series.Ok?
      && o.series.value.dates == [d0 + 1, d0 + 2, d0 + 4]
      && o.series.value.closes == [10.0, 10.5, 9.8]
      && o.series.value.current == 9.8
      && o.series.value.changePct == Some(-2.0)
  {
    var plan := [Window(d0 + 5, d0 + 6), Window(d0, d0 + 6)];
    var f := Fetched(ScenarioStore(d0), [History("X", d0 + 5, d0 + 7), History("X", d0, d0 + 7)], None);
    ScenarioPlan(d0);
    ScenarioFetch(d0, provider);
    CalendarAnswer(map[], "X", "X", Window(d0, d0 + 6), Live, provider, plan, f);
    ScenarioRead(d0);
    ScenarioSummary(d0);
  }

  /** The windowed upstream holding the three rows answers the scenario's
      calls as the scenario needs. */
  lemma WindowedProviderAnswersScenario(d0: Date)
    ensures AnswersScenario(d0, WindowedProvider(ScenarioRows(d0)))
  {
    ScenarioRefreshAnswer(d0);
    ScenarioWindowAnswer(d0);
  }

  /** The change-percent edge cases: one point has no change; `[100, 110]`
      rises by 10%. */
  lemma ChangePercentExamples(d: Date)
    ensures Summarize("A", "A", [(d, 100.0)]).value.changePct == None
    ensures Summarize("A", "A", [(d, 100.0), (d + 1, 110.0)]).value.changePct == Some(10.0)
  {
  }

  /** The scenario's week as the HTTP handler receives it: an explicit
      start and an end six days later in the same month (for the first of
      January 2024, `2024-01-01` and `2024-01-07`, by ScenarioSpellings),
      written as `strftime` writes them, resolve to the window
      `[d0, d0 + 6]` for `d0` the start's day number, whatever the period
      and today. */
  lemma ScenarioWeek(period: Option<string>, a: Civil, b: Civil, today: Date)
    requires Valid(a) && Valid(b) && a.year == b.year && a.month == b.month && b.day == a.day + 6
    ensures ResolveDateRange(period, Some(FormatDate(a)), Some(FormatDate(b)), today)
      == Ok(Window(ToOrdinal(a), ToOrdinal(a) + 6))
  {
    ResolveFormatted(period, a, b, today);
    SameMonthDistance(a, b);
  }

  /** Within one month, day numbers differ by the difference of the days. */
  lemma SameMonthDistance(a: Civil, b: Civil)
    requires Valid(a) && Valid(b) && a.year == b.year && a.month == b.month
    ensures ToOrdinal(b) == ToOrdinal(a) + (b.day - a.day)
  {
  }

  /** The first and the seventh of January 2024 as `strftime` writes them. */
  lemma ScenarioSpellings()
    ensures FormatDate(Civil(2024, 1, 1)) == "2024-01-01"
    ensures FormatDate(Civil(2024, 1, 7)) == "2024-01-07"
  {
    PadDigits();
    assert Pad(2024, 4) + "-" + Pad(1, 2) + "-" + Pad(1, 2) == "2024-01-01";
  }

  lemma PadDigits()
    ensures Pad(2024, 4) == "2024" && Pad(1, 2) == "01" && Pad(7, 2) == "07"
  {
    assert Pad(2, 1) == "2";
    assert Pad(20, 2) == "20";
    assert Pad(202, 3) == "202";
    assert Pad(0, 1) == "0";
  }
}

=== FILE: wrappers.dfy ===
/** Failure-carrying values used across the model in place of Python's
    `None` and raised exceptions. */
module Wrappers {

  /** A value that may be absent (`None` in the source). */
  datatype Option<+T> = None | Some(value: T)

  /** A computation that either produced a value or raised an error. */
  datatype Result<+T, +E> = Ok(value: T) | Err(error: E)
}
